=== FILE: README.md ===
# Durable PWA sign-in for SecretáriaPlus, in Dafny

This project models how the SecretáriaPlus progressive web app keeps a
user signed in across app restarts, storage evictions and reinstallation,
and proves properties of that model. It covers six parts:

- **Multi-storage persistence layer** (`PersistentStorage`). Every auth
  value is written to IndexedDB, the Cache API, `localStorage` and
  `sessionStorage`. It is read back in a platform-dependent priority order
  and written back everywhere on a hit.
- **Session backup** (`AuthBackup`, on top of `Cookies`, `UriComponent` and
  `Text`). The session tokens go to IndexedDB, `localStorage` and a 7-day
  cookie, and are read back in that order. A record lacking either token
  is never returned.
- **`generate-link` edge function** (`GenerateLink`). It handles CORS with
  an origin allow-list. It mints install codes for the `create-install`
  flow. It exchanges a code once for an e-mail OTP in the
  `exchange-install` flow. Otherwise it issues the legacy magic link.
- **`usePersistentAuth` hook** (`AuthHook`). Recovery runs in this order:
  the live session, the saved session, the stored install code, then the
  code in the URL. It also covers silent re-authentication with retry
  bookkeeping, logout, the auth-event listener and the periodic re-checks.
- **`/setup` page installation effect** (`SetupPage`). Outside the
  installed app it requests a code and pins `/setup?code=…` in the URL.
  Inside the app it exchanges that code, at most once per page.
- **Service worker** (`ServiceWorker`). It precaches the app shell and
  deletes every cache but its own and the auth caches on activation. It
  answers navigations network-first with an offline fallback, and static
  assets cache-first.

Browser storage, the auth server, the network, `JSON.stringify` and
`JSON.parse`, `crypto.randomUUID` and the clock are not executed. They are
parameters of the model:

- a storage backend is a map with "takes writes" and "serves reads" flags;
- a remote call is an answer passed in;
- JSON is a `Codec` pair of functions, and round trips are stated for
  values it writes faithfully (`JsValue.Faithful`);
- time is a `now` in milliseconds.

`encodeURIComponent` and `decodeURIComponent` are modelled in full: UTF-8,
percent escapes, and the `URIError` cases. The cookie jar follows
`document.cookie` semantics, including the 4096-byte limit of section 6.1
of RFC 6265.

## Model

| member | source | states |
|---|---|---|
| PersistentStorage.Wrap | src/lib/persistent-auth.ts:61-68 | the stored record is an object whose `value` field is the saved value, so reading `data.value` recovers it |
| PersistentStorage.SaveEverywhere | src/lib/persistent-auth.ts:61-103 | every backend that takes writes (IndexedDB only once opened) holds the serialized record under the key; a backend that throws keeps its contents; flags never change |
| PersistentStorage.SaveTouchesOneKey | src/lib/persistent-auth.ts:61-103 | a save changes no key but its own in any backend |
| PersistentStorage.SaveIdempotent | src/lib/persistent-auth.ts:61-103 | saving the same value twice at the same instant equals saving it once |
| PersistentStorage.FirstRecord | src/lib/persistent-auth.ts:109-153 | reference definition of the probe: it returns nothing exactly when no backend in the platform order yields a truthy parse |
| PersistentStorage.ProbeLoopFindsFirst | src/lib/persistent-auth.ts:115-153 | the loop as written (keeping falsy parses in `data` until a truthy one stops it) returns exactly the first backend's record |
| PersistentStorage.GetFromAnywhere | src/lib/persistent-auth.ts:106-162 | on a miss it returns `null` and writes nothing; on a hit it returns the first record's `value` and writes it back to every backend |
| PersistentStorage.ReadPriority | src/lib/persistent-auth.ts:109-153 | with iOS order IndexedDB, Cache, local, session and otherwise local, IndexedDB, Cache, session, the first yielding backend decides the value |
| PersistentStorage.ReadMiss | src/lib/persistent-auth.ts:155-161 | a read misses if and only if no backend yields a record, and then changes nothing |
| PersistentStorage.ReadTouchesOneKey | src/lib/persistent-auth.ts:155-159 | the write-back of a read touches only the key read |
| PersistentStorage.SaveThenGet | src/lib/persistent-auth.ts:61-162 | round trip: a saved value is read back when some backend both takes writes and serves reads and no backend serves reads it refused to write |
| PersistentStorage.StaleBackendShadowsWrite | src/lib/persistent-auth.ts:90-144 | the round trip's last condition is needed: a read-only `localStorage` holding an older record shadows a fresh save on non-iOS platforms |
| PersistentStorage.SyncKeysKeepFlags | src/lib/persistent-auth.ts:165-173 | syncing keys never changes which backends work or whether the database is open |
| PersistentStorage.SyncKeyIsRead | src/lib/persistent-auth.ts:168-173 | the explicit re-save in `syncStorages` has the same effect as the read's own write-back |
| PersistentStorage.SyncStorages | src/lib/persistent-auth.ts:165-176 | after a sync, every backend that takes writes holds the sync time under `sp_last_sync` |
| PersistentStorage.Init | src/lib/persistent-auth.ts:40-58 | a database that fails to open leaves storage untouched and skips the sync; one that opens is marked open and synchronised, so every backend that takes writes ends with the sync time under `sp_last_sync`; no backend's flags change |
| PersistentStorage.ClearAll | src/lib/persistent-auth.ts:204-227 | the four keys leave IndexedDB, `localStorage` and `sessionStorage`, and the whole auth cache is emptied; a backend that throws keeps its contents |
| PersistentStorage.ClearAllKeepsOtherKeys | src/lib/persistent-auth.ts:204-226 | a key outside the fixed four survives a clear with its text unchanged, and a fixed key does not |
| PersistentStorage.ClearThenGet | src/lib/persistent-auth.ts:204-227 | after a clear in which every readable backend's deletion succeeded, every fixed key reads back as `null` |
| PersistentStorage.SaveAuthCode | src/lib/persistent-auth.ts:179-181 | stores the code as the record of `sp_auth_code` in every writable backend and touches no other key |
| PersistentStorage.GetAuthCode | src/lib/persistent-auth.ts:183-185 | the code read is the `value` of the first backend's `sp_auth_code` record in probe order, or `null` with nothing written when no backend has one; the write-back touches only `sp_auth_code` |
| PersistentStorage.SaveSession | src/lib/persistent-auth.ts:187-189 | stores the session under `sp_session` in every writable backend, nothing else |
| PersistentStorage.GetSession | src/lib/persistent-auth.ts:191-193 | the session read is the `value` of the first backend's `sp_session` record in probe order, or `null` with nothing written; the write-back touches only `sp_session` |
| PersistentStorage.SaveUserData | src/lib/persistent-auth.ts:195-197 | stores the user under `sp_user_data` in every writable backend, nothing else |
| PersistentStorage.GetUserData | src/lib/persistent-auth.ts:199-201 | the user data read is the `value` of the first backend's `sp_user_data` record in probe order, or `null` with nothing written; the write-back touches only `sp_user_data` |
| Cookies.SetCookie | src/lib/auth-persist.ts:88-93 | the cookie replaces a same-named one in place or is appended; every other cookie is kept; a cookie over 4096 bytes is dropped |
| Cookies.DeleteCookie | src/lib/auth-persist.ts:103-107 | no cookie of that name remains and every other cookie is kept |
| Cookies.GetCookieMissing | src/lib/auth-persist.ts:94-102 | `getCookie` returns `null` when no `; `-separated piece starts with `name=` |
| Cookies.GetCookieValue | src/lib/auth-persist.ts:94-102 | `getCookie` percent-decodes everything after the first `=` of the first matching piece, rejoining later `=` signs |
| Cookies.ReadLiveCookie | src/lib/auth-persist.ts:94-98 | a live cookie of a well-formed jar is found by name in `document.cookie` |
| Cookies.SetThenGet | src/lib/auth-persist.ts:88-102 | round trip: a value that fits, set with a name free of `=` and `;`, is read back unchanged until it expires |
| Cookies.DeleteThenGet | src/lib/auth-persist.ts:94-107 | after deletion the cookie reads back as `null` |
| Text.JoinSplit | src/lib/auth-persist.ts:98 | `s.split(sep).join(sep)` is `s` |
| Text.SplitJoin | src/lib/auth-persist.ts:98 | splitting a join of separator-free pieces gives back the pieces |
| Text.AfterFirst | src/lib/auth-persist.ts:98 | `p.split('=').slice(1).join('=')` is exactly the text after the first `=` |
| UriComponent.DecodeEncode | src/lib/auth-persist.ts:91-98 | `decodeURIComponent(encodeURIComponent(s))` is `s` for every string of Unicode scalar values |
| UriComponent.EncodeAlphabet | src/lib/auth-persist.ts:91 | the encoding uses only unreserved characters, hex digits and `%` |
| UriComponent.EncodeHasNo | src/lib/auth-persist.ts:91 | no `;`, `=`, `&`, `+` or space survives encoding |
| AuthBackup.Payload | src/lib/auth-persist.ts:114-120 | the payload is an object with exactly the five fields; it carries both tokens, and `expires_at`, `provider_token` and `user` are copied from the session when present and are `null` otherwise |
| AuthBackup.OrNull | src/lib/auth-persist.ts:117-119 | `x ?? null` maps `null` and `undefined` to `null` and keeps every other value |
| AuthBackup.WriteFallbacks | src/lib/auth-persist.ts:125-127 | the fallback writes keep the cookie jar well formed |
| AuthBackup.PersistAuthBackup | src/lib/auth-persist.ts:112-145 | IndexedDB gets the payload object when it works; `localStorage` and the cookie get its JSON text whether or not IndexedDB threw; a tier that throws keeps its contents |
| AuthBackup.FallbacksIndependentOfIdb | src/lib/auth-persist.ts:112-145 | the `try` path and the `catch` path leave the same fallback contents |
| AuthBackup.ReadAuthBackup | src/lib/auth-persist.ts:147-173 | returns IndexedDB's record if usable, else `localStorage`'s, else the cookie's; `null` exactly when none has both tokens; a returned record always has both |
| AuthBackup.NoHalfSession | src/lib/auth-persist.ts:147-173 | when no tier holds a record with both tokens, the read yields `null` |
| AuthBackup.CookieIsLastResort | src/lib/auth-persist.ts:163-172 | a cookie record is returned only when neither higher tier has a usable one |
| AuthBackup.PersistThenRead | src/lib/auth-persist.ts:112-173 | round trip: a session with both tokens comes back as its payload from the first working tier, within the cookie's 7 days |
| AuthBackup.ClearAuthBackup | src/lib/auth-persist.ts:175-179 | each tier's entry is removed when that tier works, independently of the others; every other IndexedDB and `localStorage` key, every other cookie and every flag is unchanged |
| AuthBackup.ClearThenRead | src/lib/auth-persist.ts:175-179 | after a clear in which every deletion succeeded, the read yields `null` |
| GenerateLink.AllowOrigin | supabase/functions/generate-link/index.ts:20-30 | the CORS origin echoes an allow-listed origin and is `*` otherwise |
| GenerateLink.RedirectTarget | supabase/functions/generate-link/index.ts:46-56 | `redirect_to` is kept exactly when it is non-empty, parses and has an allow-listed origin, and then as the parsed URL |
| GenerateLink.Handle | supabase/functions/generate-link/index.ts:18-255 | every response carries the computed CORS origin; a preflight returns at once with no body and no writes; only `create-install` and `exchange-install` change the code table; every magic-link request uses the filtered `redirect_to` |
| GenerateLink.CreateNeedsAuthorisation | supabase/functions/generate-link/index.ts:70-81 | create-install answers 401 if and only if the origin is not allow-listed and the token is unset or does not match; a 401 writes nothing |
| GenerateLink.CreateNeedsEmail | supabase/functions/generate-link/index.ts:88-91 | an authorised create-install without e-mail is a 400 that writes nothing |
| GenerateLink.CreateLinkErrorFails | supabase/functions/generate-link/index.ts:93-102 | any `generateLink` error object, even one with an empty message, fails create-install with a 500 carrying its message or the fallback, and writes nothing |
| GenerateLink.CreatedCode | supabase/functions/generate-link/index.ts:104-147 | a successful create-install returns a new code, stored unused for that e-mail with `max_uses` 1 and expiry 30 minutes ahead; no other code row changes |
| GenerateLink.ExchangeRejections | supabase/functions/generate-link/index.ts:151-177 | missing, unknown, used and expired codes are rejected in that order (a used code is reported as used even when also expired); a rejection writes nothing and requests no link |
| GenerateLink.ExchangeSuccess | supabase/functions/generate-link/index.ts:179-207 | an exchange succeeds if and only if the code is redeemable and `generateLink` returned no error object, a user and an OTP for the row's e-mail; the reply carries that e-mail and a non-empty OTP |
| GenerateLink.ExchangeOnce | supabase/functions/generate-link/index.ts:172-201 | once an exchange has marked its code used, every later exchange of that code is rejected as used |
| GenerateLink.ExchangeReplayAfterFailedUpdate | supabase/functions/generate-link/index.ts:192-207 | when marking the code used fails, the OTP is still returned and the same code can be exchanged again before it expires |
| GenerateLink.LegacyModes | supabase/functions/generate-link/index.ts:210-255 | the legacy flow answers `mode=json` with the link as JSON, and any other mode with a 302 to it |
| AuthHook.CodeOf | src/hooks/use-persistent-auth.ts:93 | a stored code is acted on exactly when it is a non-empty string |
| AuthHook.Adopt | src/hooks/use-persistent-auth.ts:181-197 | a login saves the session, the code and the user data to every backend that takes writes, changes no other key and no refusing backend, and authenticates with the user and code without touching the retry count or the URL |
| AuthHook.SilentReauth | src/hooks/use-persistent-auth.ts:136-204 | succeeds exactly when the reply is accepted and the OTP login yields a session, resetting the count; a failed fetch, a `null` reply (on which `data.ok` throws) or a throwing login adds exactly one retry and writes nothing; a rejected reply blanks the stored code when the count is at least 3 and changes nothing below that; a login without a session changes nothing |
| AuthHook.HandleInstallCode | src/hooks/use-persistent-auth.ts:207-268 | succeeds exactly when the reply is accepted and the login yields a session; a failure changes nothing |
| AuthHook.RecoverSession | src/hooks/use-persistent-auth.ts:44-133 | the result is true exactly when the state ends authenticated; loading always ends; the error state appears exactly when `getSession` rejects, and then nothing else changes |
| AuthHook.AdoptLive | src/hooks/use-persistent-auth.ts:49-60 | a live session's user is adopted without touching retries or the URL |
| AuthHook.FromSaved | src/hooks/use-persistent-auth.ts:62-120 | the steps after the live session report success exactly when they authenticate, and never set an error |
| AuthHook.ViaCodes | src/hooks/use-persistent-auth.ts:92-120 | the stored code is tried first and, when it logs in, its outcome is final; when it does not, the outcome is exactly whether the URL code then authenticates (adopting it and clearing it from the URL); when neither does, the state is signed out, `code` null, the URL untouched, and the store and retry count are what the stored attempt left |
| AuthHook.LiveSessionFirst | src/hooks/use-persistent-auth.ts:47-60 | a live session wins: it is stored in every writable backend and adopted, with no retry counted and the URL untouched |
| AuthHook.SavedSessionBeforeCode | src/hooks/use-persistent-auth.ts:62-90 | a restorable saved session is used before any code exchange |
| AuthHook.FailedRestoreFallsThrough | src/hooks/use-persistent-auth.ts:62-97 | a saved session that `setSession` cannot restore falls through to the stored code and then the URL code |
| AuthHook.SavedCodeBeforeUrlCode | src/hooks/use-persistent-auth.ts:92-110 | when the stored code logs in, recovery is `silentReauth`'s outcome, the URL code is neither used nor cleared, and the URL exchange's answer makes no difference |
| AuthHook.UrlCodeInstalls | src/hooks/use-persistent-auth.ts:92-110 | when no live or restorable session exists and the stored code is absent or fails to log in, recovery adopts the URL code and removes it from the URL, keeping the retry count the failed stored attempt left |
| AuthHook.NothingToRecover | src/hooks/use-persistent-auth.ts:112-120 | with no session, no code and no URL code, recovery ends signed out and writes only what its reads wrote back |
| AuthHook.RejectionsNeverBlank | src/hooks/use-persistent-auth.ts:158-167 | while fewer than 3 errors have been thrown, any run of rejected non-null replies leaves the hook unchanged; the code is never blanked |
| AuthHook.ThrowsAreCounted | src/hooks/use-persistent-auth.ts:199-202 | n failed fetches raise the retry count by exactly n and write nothing |
| AuthHook.BlankedCodeIsSkipped | src/hooks/use-persistent-auth.ts:161-163 | a blanked code reads back as the empty string, which recovery does not exchange |
| AuthHook.InitPersistence | src/hooks/use-persistent-auth.ts:31-41 | the first call runs the storage `init()` and marks the hook initialised; a later call changes nothing; the auth state, retry count and URL code are never touched |
| AuthHook.StoredAttempt | src/hooks/use-persistent-auth.ts:92-97 | the stored-code attempt never touches the URL code or the initialised flag, and with no stored code does nothing |
| AuthHook.InitOnce | src/hooks/use-persistent-auth.ts:31-41 | initialisation is idempotent: a second call, whatever the database does, leaves the hook as the first left it, with the store the first `init()` produced |
| AuthHook.Mount | src/hooks/use-persistent-auth.ts:307-311 | the mount effect initialises persistence and always ends loading, authenticated exactly when recovery succeeded, with an error exactly when reading the Supabase session threw; a live session with a user signs in as that user |
| AuthHook.Logout | src/hooks/use-persistent-auth.ts:271-289 | a successful sign-out clears every persistent key and resets the state; a failed sign-out changes nothing |
| AuthHook.LogoutThenRecover | src/hooks/use-persistent-auth.ts:271-282 | after logout, with no live session and no URL code, recovery finds nothing to restore |
| AuthHook.CheckAuth | src/hooks/use-persistent-auth.ts:292-304 | a check does nothing unless the captured flag says authenticated; then it recovers when Supabase reports no session, and changes nothing when a session is reported or the probe rejects |
| AuthHook.OnAuthEvent | src/hooks/use-persistent-auth.ts:316-337 | `SIGNED_IN` and `TOKEN_REFRESHED` with a session save it; `SIGNED_IN` also authenticates as its user, `TOKEN_REFRESHED` leaves the state alone; `SIGNED_OUT` drops only the user and flag; nothing else is saved, other events, and `SIGNED_IN` or `TOKEN_REFRESHED` without a session, change nothing; and the code, error, retries and URL are never touched |
| AuthHook.SignedInSessionReadsBack | src/hooks/use-persistent-auth.ts:320-334 | a session delivered by `SIGNED_IN` or `TOKEN_REFRESHED` is what the store reads back, when some backend takes writes and serves reads and none serves reads it refused |
| AuthHook.OnFocus | src/hooks/use-persistent-auth.ts:352-356 | focus synchronises the storages and changes nothing else: the auth state, retry count, URL code and initialised flag are kept |
| AuthHook.TriggersAreInert | src/hooks/use-persistent-auth.ts:339-363 | as written, the five-minute tick, the visibility handler and the `CHECK_AUTH` message never change anything |
| AuthHook.LapseExample | src/hooks/use-persistent-auth.ts:292-347 | a concrete lapsed session that the corrected tick restores and the tick as written leaves lapsed |
| AuthHook.Tick | src/hooks/use-persistent-auth.ts:292-304 | the corrected tick reads `isAuthenticated` from the current state: when not authenticated, or when the session is live, or when reading it throws, nothing changes; when authenticated and the session is gone, it runs recovery |
| AuthHook.Visible | src/hooks/use-persistent-auth.ts:343-347 | the corrected visibility handler ignores hidden pages and otherwise acts as the tick |
| AuthHook.Message | src/hooks/use-persistent-auth.ts:359-363 | the corrected message handler acts as the tick on `CHECK_AUTH` and ignores other messages |
| AuthHook.TickRecoversLapse | src/hooks/use-persistent-auth.ts:292-304 | the corrected tick re-authenticates a lapsed session from the stored code and resets retries, while the tick as written leaves the hook unchanged |
| SetupPage.ReadStored | src/pages/Setup.tsx:141-143 | the stored code is used exactly when storage is readable and holds a non-empty string |
| SetupPage.Exchange | src/pages/Setup.tsx:54-88 | an exchange sends one request for its code, sets `exchangingRef`, and goes home exactly when the reply has ok, email and OTP and the login reports no error |
| SetupPage.ExchangeSettles | src/pages/Setup.tsx:66-86 | a successful exchange removes the stored code; a failed one keeps it and shows a non-empty error |
| SetupPage.Create | src/pages/Setup.tsx:92-129 | a create request carries the e-mail and `redirect_to` of the page origin; on a reply with a code the page pins the code's URL and stores the code; otherwise it shows an error and stores nothing |
| SetupPage.Effect | src/pages/Setup.tsx:45-185 | a run makes at most one request; an exchange happens only inside the app and only before any other; `exchangingRef` is set exactly when an exchange started |
| SetupPage.EffectBranches | src/pages/Setup.tsx:45-185 | a code is requested exactly outside the app with no URL code and an e-mail; an exchange exactly inside the app, before any other, with the URL code or else the stored one; a missing e-mail outside the app, and no usable code inside it, show their errors without a request |
| SetupPage.CodeInUrlIsKept | src/pages/Setup.tsx:132-137 | outside the app a URL code is kept and stored without any request |
| SetupPage.AtMostOneExchange | src/pages/Setup.tsx:54-145 | however often the effect re-runs, and even after a failed attempt, a page exchanges at most once |
| SetupPage.PinnedSearch | src/pages/Setup.tsx:117 | the search part of the pinned URL is `code=` followed by the percent-encoded code, whatever the origin (so long as it has no `?`) |
| SetupPage.SinglePair | src/pages/Setup.tsx:46-47 | `params.get('code')` on a query holding one `code=` pair reads back the percent-decoding of its value when that value has no `&` or `+` |
| SetupPage.PinnedUrlCarriesCode | src/pages/Setup.tsx:117-118 | the pinned `/setup?code=…` URL has a query whose `code` parameter reads back as exactly the issued code |
| SetupPage.PinnedUrlLeadsToExchange | src/pages/Setup.tsx:46-137 | opened inside the installed app, the pinned URL exchanges exactly the issued code; opened in the browser, it keeps the code without a new request |
| ServiceWorker.Match | public/sw.js:83-84 | `caches.match` misses exactly when no cache holds the URL |
| ServiceWorker.Install | public/sw.js:16-27 | install succeeds exactly when every app-shell file fetches with an ok, non-206 status; on success only `sp-cache-v3` changes, the set of caches is what opening it gives, and every entry it held stays (other than the shell's URLs, with its value); on failure nothing is added (the cache is still created) |
| ServiceWorker.InstallStoresShell | public/sw.js:18-22 | after a successful install every app-shell file is in `sp-cache-v3` as fetched |
| ServiceWorker.Activate | public/sw.js:29-51 | activation keeps exactly the caches named in the keep list, with their contents |
| ServiceWorker.ActivateKeepsExactly | public/sw.js:32-45 | the surviving names are the kept names in their original order, and activating twice equals activating once |
| ServiceWorker.AuthCacheKept | public/sw.js:35-39 | the persistence layer's `sp-auth-cache-v1` survives activation |
| ServiceWorker.Navigate | public/sw.js:68-88 | navigations take the network's answer whatever its status, caching it in `sp-cache-v3` only when ok and not partial (206, which `cache.put` rejects); on a network error they answer with the cached entry, else the cached offline page, and write nothing |
| ServiceWorker.CacheFirst | public/sw.js:91-124 | a cached entry is served without the network; otherwise the network's answer, cached only when ok and not partial (206); a network error becomes the branch's fallback |
| ServiceWorker.Fetch | public/sw.js:54-125 | non-GET and OneSignal requests are not intercepted; navigations are network-first whatever their destination; other images and fonts, and scripts and styles, are cache-first with their own fallbacks; every other request is left to the browser and changes no cache |
| ServiceWorker.OfflineNavigationAnswered | public/sw.js:81-85 | after a successful install and activation an offline navigation is always answered |
| ServiceWorker.StrategiesDiffer | public/sw.js:68-108 | with the same cache and network, a navigation gets the network's answer and an image gets the cached one |
| ServiceWorker.StaticFallbacks | public/sw.js:104-122 | an uncached image the network cannot deliver becomes an empty 404; a script becomes a network error |
| ServiceWorker.NavigationCachedForOffline | public/sw.js:71-85 | an ok, non-partial navigation response is what a later offline navigation to that URL receives, unless an older cache already holds the URL |

## Left out

- `DeviceInfo` (src/lib/persistent-auth.ts:7-22) and the `device_info` query parameter are diagnostics. The server never reads them.
- `tryPersistStorage` (src/lib/auth-persist.ts:185-193) is a browser hint with no observable effect on stored data.
- The IndexedDB, Cache API and Web Storage calls are not modelled call by call. Each backend is a map with "takes writes" and "serves reads" flags. A database that fails to open is the `dbOpened` input.
- `JSON.stringify` and `JSON.parse` are the `Codec` parameter, so round trips assume a faithful codec. `JSON.parse("")` throwing on an empty Cache API body is left to the codec.
- Numbers are integers; there is no NaN, no floating point and no ISO date text. `expires_at` and `used_at` are millisecond integers. One `now` stands for every `Date.now()` within one operation.
- Cookie `Path`, `SameSite` and second-granularity `Expires` are left out. Expiry is compared in milliseconds. Browser cookie limits are modelled only as the 4096-byte limit on name plus encoded value.
- Asynchrony is left out. Operations run one after another to completion, so interleavings of concurrent promises are not modelled. In particular, two concurrent `exchange-install` requests can both pass the `used_at` check, because check and update are not atomic.
- Toasts and console output are not modelled.
- The edge function's final `catch` ('Erro inesperado') is not modelled. It is reached only by a runtime exception, such as an unparsable request URL, which the model has no counterpart for.
- The code column of `auth_install_codes` is taken to be unique, so an insert whose UUID already exists fails. `created_at` is not modelled. `max_uses` is stored, but the source never consults it.
- Detection of the installed state is not modelled. That covers `isStandalone`, `isIOS` and the effect that updates `installed` (src/pages/Setup.tsx:11-43); `installed` is an input. The page's rendering is not modelled.
- URL parsing is minimal. A URL has no fragment, query names are compared undecoded, and a query value containing a malformed percent escape or escapes that are not valid UTF-8 is kept entirely as written (only `+` becomes a space) rather than decoded leniently.
- A stored install code, a reply's `code` or a reply's `error` that is truthy but not a string is not modelled. The app itself only ever writes strings there.
- The service worker's `skipWaiting` and `clients.claim` are not modelled. The cache writes it starts without awaiting are taken to complete. Cache matching is by URL alone, with no `Vary` or search options.
- There is no client-side maximum age or consume-on-read for install codes: a stored code is kept until it is blanked, replaced or cleared by logout, and its expiry is enforced only by the server.
- `silentReauth` counts only thrown errors (including a `null` reply), and blanks the stored code only on a rejected reply once that count is at least 3. A code that is only ever rejected is therefore never blanked, as `AuthHook.RejectionsNeverBlank` states.

## Findings

| source | as written | input that shows it | evidently intended | confidence | as-written member | corrected member |
|---|---|---|---|---|---|---|
| src/hooks/use-persistent-auth.ts:339-363 | The mount effect has empty dependencies. So the five-minute interval, the visibility handler and the service-worker message handler keep the first render's `checkAuth` and `authState`, whose `isAuthenticated` is `false`. Every periodic or event-driven check returns at once. | A signed-in hook whose Supabase session has lapsed, with a valid stored code, at the next five-minute tick | The triggers re-check with the current authentication state and recover a lapsed session | not executed; high | AuthHook.TriggersAreInert | AuthHook.TickRecoversLapse |

=== FILE: auth_backup.dfy ===
/**
  The session backup of src/lib/auth-persist.ts: the auth tokens are saved
  to three tiers (IndexedDB, which stores the object itself; `localStorage`,
  which stores its JSON text; and a 7-day cookie holding the percent-encoded
  JSON text) and read back in that priority order, never returning a record
  that lacks either token.
*/
module AuthBackup {
  import opened Base
  import opened JsValue
  import Cookies

  const IdbKey: string := "auth_backup"
  const LocalKey: string := "sp_auth_backup"
  const CookieKey: string := "sp_auth_backup"
  const CookieDays: int := 7

  /** The fields of the auth client's session that the backup reads.
      `user` is the session's user object (`undefined` when absent). */
  datatype Session = Session(
    accessToken: string,
    refreshToken: string,
    expiresAt: Option<int>,
    providerToken: Option<string>,
    user: Value)

  /** A tier that stores values of type `T` under string keys. */
  datatype Tier<T> = Tier(slots: map<string, T>, writable: bool, readable: bool)

  /** IndexedDB holds objects (structured clone), `localStorage` text, and
      the cookie jar cookies. */
  datatype Tiers = Tiers(idb: Tier<Value>, local: Tier<string>, jar: seq<Cookie>, cookieWritable: bool, cookieReadable: bool)

  type Cookie = Cookies.Cookie

  predicate WellFormed(t: Tiers) {
    Cookies.WellFormed(t.jar)
  }

  /** `x ?? null`. */
  function OrNull(v: Value): (r: Value)
    ensures v == Undefined || v == Null ==> r == Null
    ensures v != Undefined && v != Null ==> r == v
  {
    if v == Undefined then Null else v
  }

  /** The `AuthBackup` payload built from a session: both tokens, and
      `expires_at`, `provider_token` and `user` defaulting to `null`. */
  function Payload(s: Session): (p: Value)
    ensures Member(p, "access_token") == Str(s.accessToken)
    ensures Member(p, "refresh_token") == Str(s.refreshToken)
    ensures p.Obj? && p.fields.Keys == {"access_token", "refresh_token", "expires_at", "provider_token", "user"}
    ensures s.expiresAt.None? ==> Member(p, "expires_at") == Null
    ensures s.expiresAt.Some? ==> Member(p, "expires_at") == Num(s.expiresAt.value)
    ensures s.providerToken.None? ==> Member(p, "provider_token") == Null
    ensures s.providerToken.Some? ==> Member(p, "provider_token") == Str(s.providerToken.value)
    ensures s.user == Undefined || s.user == Null ==> Member(p, "user") == Null
    ensures s.user != Undefined && s.user != Null ==> Member(p, "user") == s.user
  {
    Obj(map[
      "access_token" := Str(s.accessToken),
      "refresh_token" := Str(s.refreshToken),
      "expires_at" := (match s.expiresAt case Some(n) => Num(n) case None => Null),
      "provider_token" := StrOrNull(s.providerToken),
      "user" := OrNull(s.user)])
  }

  /** A usable backup: truthy, with truthy `access_token` and
      `refresh_token`. */
  predicate Valid(v: Value) {
    Truthy(v) && Truthy(Member(v, "access_token")) && Truthy(Member(v, "refresh_token"))
  }

  function StoreValue(tier: Tier<Value>, key: string, v: Value): Tier<Value> {
    if tier.writable then tier.(slots := tier.slots[key := v]) else tier
  }

  function StoreText(tier: Tier<string>, key: string, text: string): Tier<string> {
    if tier.writable then tier.(slots := tier.slots[key := text]) else tier
  }

  /** The two fallback writes (`localStorage`, then the cookie), each in its
      own `try`. */
  function WriteFallbacks(t: Tiers, codec: Codec, payload: Value, now: int): (r: Tiers)
    requires WellFormed(t)
    ensures WellFormed(r)
  {
    var text := codec.stringify(payload);
    var withLocal := t.(local := StoreText(t.local, LocalKey, text));
    if t.cookieWritable
    then withLocal.(jar := Cookies.SetCookie(t.jar, CookieKey, text, now, CookieDays))
    else withLocal
  }

  /** `persistAuthBackup(session)`: the IndexedDB write comes first; whether
      it succeeds or throws, `localStorage` and the cookie are written with
      a payload of the same shape. */
  function PersistAuthBackup(t: Tiers, codec: Codec, s: Session, now: int): (r: Tiers)
    requires WellFormed(t)
    ensures WellFormed(r)
    ensures r.idb.writable == t.idb.writable && r.idb.readable == t.idb.readable
    ensures r.local.writable == t.local.writable && r.local.readable == t.local.readable
    ensures r.cookieWritable == t.cookieWritable && r.cookieReadable == t.cookieReadable
    ensures t.idb.writable ==> r.idb.slots == t.idb.slots[IdbKey := Payload(s)]
    ensures !t.idb.writable ==> r.idb == t.idb
    ensures t.local.writable ==> r.local.slots == t.local.slots[LocalKey := codec.stringify(Payload(s))]
    ensures !t.local.writable ==> r.local == t.local
    ensures t.cookieWritable ==> r.jar == Cookies.SetCookie(t.jar, CookieKey, codec.stringify(Payload(s)), now, CookieDays)
    ensures !t.cookieWritable ==> r.jar == t.jar
  {
    var payload := Payload(s);
    if t.idb.writable then
      WriteFallbacks(t.(idb := StoreValue(t.idb, IdbKey, payload)), codec, payload, now)
    else
      // The `catch` branch rebuilds the same literal.
      WriteFallbacks(t, codec, Payload(s), now)
  }

  /** The IndexedDB candidate: the stored object, `undefined` when missing
      or when the read throws. */
  function IdbCandidate(t: Tiers): Value {
    if t.idb.readable && IdbKey in t.idb.slots then t.idb.slots[IdbKey] else Undefined
  }

  /** The `localStorage` candidate: its text parsed, if there is non-empty
      text that parses. */
  function LocalCandidate(t: Tiers, codec: Codec): Option<Value> {
    if t.local.readable && LocalKey in t.local.slots && |t.local.slots[LocalKey]| > 0
    then codec.parse(t.local.slots[LocalKey])
    else None
  }

  /** The cookie candidate: `getCookie` at time `now`, parsed, if non-empty
      and parseable. */
  function CookieCandidate(t: Tiers, codec: Codec, now: int): Option<Value> {
    if !t.cookieReadable then None
    else match Cookies.GetCookie(Cookies.DocumentCookie(t.jar, now), CookieKey)
      case Some(text) => if |text| > 0 then codec.parse(text) else None
      case None => None
  }

  predicate ValidCandidate(c: Option<Value>) {
    c.Some? && Valid(c.value)
  }

  /** `readAuthBackup()`: IndexedDB, then `localStorage`, then the cookie;
      a tier that throws, misses or holds an incomplete record falls through
      to the next, and `null` comes back when none has both tokens. */
  function ReadAuthBackup(t: Tiers, codec: Codec, now: int): (r: Option<Value>)
    ensures r.Some? ==> Valid(r.value)
    ensures r.None? <==>
      !Valid(IdbCandidate(t)) && !ValidCandidate(LocalCandidate(t, codec)) && !ValidCandidate(CookieCandidate(t, codec, now))
    ensures Valid(IdbCandidate(t)) ==> r == Some(IdbCandidate(t))
    ensures !Valid(IdbCandidate(t)) && ValidCandidate(LocalCandidate(t, codec)) ==> r == LocalCandidate(t, codec)
  {
    var fromIdb := IdbCandidate(t);
    if Truthy(fromIdb) && Truthy(Member(fromIdb, "access_token")) && Truthy(Member(fromIdb, "refresh_token"))
    then Some(fromIdb)
    else
      var fromLocal := LocalCandidate(t, codec);
      if fromLocal.Some? && Truthy(Member(fromLocal.value, "access_token")) && Truthy(Member(fromLocal.value, "refresh_token"))
      then fromLocal
      else
        var fromCookie := CookieCandidate(t, codec, now);
        if fromCookie.Some? && Truthy(Member(fromCookie.value, "access_token")) && Truthy(Member(fromCookie.value, "refresh_token"))
        then fromCookie
        else None
  }

  /** `clearAuthBackup()`: each tier's deletion is attempted on its own. */
  function ClearAuthBackup(t: Tiers): (r: Tiers)
    requires WellFormed(t)
    ensures WellFormed(r)
    ensures t.idb.writable ==> IdbKey !in r.idb.slots
    ensures t.local.writable ==> LocalKey !in r.local.slots
    ensures t.cookieWritable ==> forall c :: c in r.jar ==> c.name != CookieKey
    ensures !t.idb.writable ==> r.idb == t.idb
    ensures !t.local.writable ==> r.local == t.local
    ensures !t.cookieWritable ==> r.jar == t.jar
    ensures r.idb.writable == t.idb.writable && r.idb.readable == t.idb.readable
    ensures r.local.writable == t.local.writable && r.local.readable == t.local.readable
    ensures r.cookieWritable == t.cookieWritable && r.cookieReadable == t.cookieReadable
    ensures forall k :: k != IdbKey ==> (k in r.idb.slots <==> k in t.idb.slots)
    ensures forall k :: k != IdbKey && k in t.idb.slots ==> r.idb.slots[k] == t.idb.slots[k]
    ensures forall k :: k != LocalKey ==> (k in r.local.slots <==> k in t.local.slots)
    ensures forall k :: k != LocalKey && k in t.local.slots ==> r.local.slots[k] == t.local.slots[k]
    ensures forall c: Cookie :: c.name != CookieKey ==> (c in r.jar <==> c in t.jar)
  {
    var idb := if t.idb.writable then t.idb.(slots := t.idb.slots - {IdbKey}) else t.idb;
    var local := if t.local.writable then t.local.(slots := t.local.slots - {LocalKey}) else t.local;
    var jar := if t.cookieWritable then Cookies.DeleteCookie(t.jar, CookieKey) else t.jar;
    t.(idb := idb, local := local, jar := jar)
  }

  // ---------------------------------------------------------------------
  // Properties
  // ---------------------------------------------------------------------

  /** A record missing either token in every tier is never returned. */
  lemma NoHalfSession(t: Tiers, codec: Codec, now: int)
    requires !Valid(IdbCandidate(t))
    requires forall v :: LocalCandidate(t, codec) == Some(v) ==> !Valid(v)
    requires forall v :: CookieCandidate(t, codec, now) == Some(v) ==> !Valid(v)
    ensures ReadAuthBackup(t, codec, now) == None
  {
  }

  /** The cookie tier is consulted only when both higher tiers have nothing
      usable. */
  lemma CookieIsLastResort(t: Tiers, codec: Codec, now: int)
    requires ReadAuthBackup(t, codec, now).Some?
    requires ReadAuthBackup(t, codec, now) != Some(IdbCandidate(t))
    requires ReadAuthBackup(t, codec, now) != LocalCandidate(t, codec)
    ensures !Valid(IdbCandidate(t)) && !ValidCandidate(LocalCandidate(t, codec))
    ensures ReadAuthBackup(t, codec, now) == CookieCandidate(t, codec, now)
  {
  }

  /** Both write paths of `persistAuthBackup` give the fallbacks the same
      text; only the IndexedDB tier differs. */
  lemma FallbacksIndependentOfIdb(t: Tiers, codec: Codec, s: Session, now: int)
    requires WellFormed(t)
    ensures
      var ok := PersistAuthBackup(t.(idb := t.idb.(writable := true)), codec, s, now);
      var failed := PersistAuthBackup(t.(idb := t.idb.(writable := false)), codec, s, now);
      ok.local == failed.local && ok.jar == failed.jar
  {
  }

  /** Every tier that both takes writes and serves reads, with no tier that
      refuses writes still serving reads. */
  predicate Healthy(t: Tiers) {
    && (t.idb.readable ==> t.idb.writable)
    && (t.local.readable ==> t.local.writable)
    && (t.cookieReadable ==> t.cookieWritable)
    && ((t.idb.readable) || (t.local.readable) || (t.cookieReadable))
  }

  /** Round trip: a session with both tokens, persisted and read back before
      the cookie expires, comes back as its payload, provided some tier
      works and none serves stale data it refused to overwrite. The cookie
      tier additionally needs the encoded payload to fit in a cookie. */
  lemma PersistThenRead(t: Tiers, codec: Codec, s: Session, t0: int, now: int)
    requires WellFormed(t) && Healthy(t)
    requires |s.accessToken| > 0 && |s.refreshToken| > 0
    requires Faithful(codec, Payload(s))
    requires now < t0 + CookieDays * Cookies.DayMs
    requires !t.idb.readable && !t.local.readable ==> Cookies.Fits(CookieKey, codec.stringify(Payload(s)))
    ensures ReadAuthBackup(PersistAuthBackup(t, codec, s, t0), codec, now) == Some(Payload(s))
  {
    var p := Payload(s);
    var r := PersistAuthBackup(t, codec, s, t0);
    assert Valid(p);
    if t.idb.readable {
      assert IdbCandidate(r) == p;
    } else if t.local.readable {
      assert LocalCandidate(r, codec) == Some(p);
    } else {
      var text := codec.stringify(p);
      Cookies.SetThenGet(t.jar, CookieKey, text, t0, CookieDays, now);
      assert CookieCandidate(r, codec, now) == Some(p);
    }
  }

  /** After a clear in which every tier's deletion succeeded, nothing is
      read back. */
  lemma ClearThenRead(t: Tiers, codec: Codec, now: int)
    requires WellFormed(t)
    requires t.idb.writable && t.local.writable && t.cookieWritable
    ensures ReadAuthBackup(ClearAuthBackup(t), codec, now) == None
  {
    var r := ClearAuthBackup(t);
    Cookies.DeleteThenGet(t.jar, CookieKey, now);
    assert IdbCandidate(r) == Undefined;
    assert LocalCandidate(r, codec) == None;
    assert CookieCandidate(r, codec, now) == None;
  }
}

=== FILE: auth_hook.dfy ===
/**
  The `usePersistentAuth` hook (src/hooks/use-persistent-auth.ts): session
  recovery at mount, silent re-authentication with the stored install code,
  first-time installation from the `?code=` in the URL, logout, the
  Supabase auth-event listener, and the periodic / visibility / service
  worker re-checks.

  React state, refs and the page URL are the fields of `Hook`; each
  operation maps a `Hook` and the answers of the calls it makes (Supabase
  auth, the `generate-link` fetch) to the next `Hook`. Toasts and console
  output are not modelled.
*/
module AuthHook {
  import opened Base
  import opened JsValue
  import PS = PersistentStorage

  /** `MAX_RETRIES`. */
  const MaxRetries: nat := 3
  /** The periodic re-check: every five minutes. */
  const CheckIntervalMs: int := 5 * 60 * 1000
  const RecoverFailed: string := "Erro ao recuperar sessão"

  datatype AuthState = AuthState(isAuthenticated: bool, isLoading: bool, user: Value, code: Value, error: Option<string>)

  const Loading: AuthState := AuthState(false, true, Null, Null, None)
  const SignedOutState: AuthState := AuthState(false, false, Null, Null, None)

  /** The hook's state (`authState`), its refs (`initRef`, `retryCount`),
      the persistent store it drives, and the `code` query parameter of the
      current URL. */
  datatype Hook = Hook(state: AuthState, initialised: bool, retries: nat, store: PS.Storage, urlCode: Option<string>)

  /** Platform facts the storage layer needs for every call. */
  datatype Platform = Platform(codec: Codec, ios: bool, now: int)

  /** `supabase.auth.getSession()`: rejected, or the session (`null` when
      there is none). */
  datatype SessionAnswer = GetThrew | Current(session: Value)

  /** The `generate-link?flow=exchange-install` fetch: rejected (network or
      JSON error) or the decoded reply. */
  datatype ExchangeAnswer = FetchThrew | Reply(data: Value)

  /** `supabase.auth.verifyOtp(...)`: rejected, or its error flag and the
      returned session and user. */
  datatype VerifyAnswer = VerifyThrew | Verified(failed: bool, session: Value, user: Value)

  /** Everything `recoverSession` may ask the outside world, in call order:
      the current session, the `setSession` result (falsy when it has no
      session or throws), and the exchange and OTP login for the stored
      code and for the URL code. */
  datatype Calls = Calls(
    current: SessionAnswer,
    restored: Value,
    savedExchange: ExchangeAnswer,
    savedVerify: VerifyAnswer,
    urlExchange: ExchangeAnswer,
    urlVerify: VerifyAnswer)

  /** An operation's boolean result and the hook afterwards. */
  datatype Step = Step(ok: bool, hook: Hook)

  /** A stored auth code the hook acts on: a non-empty string. */
  function CodeOf(v: Value): (r: Option<string>)
    ensures r.Some? <==> v.Str? && |v.s| > 0
    ensures r.Some? ==> Truthy(v) && v == Str(r.value)
  {
    if v.Str? && |v.s| > 0 then Some(v.s) else None
  }

  /** A reply the exchange accepts: truthy `ok` and `email_otp`. */
  predicate Accepted(data: Value) {
    Truthy(Member(data, "ok")) && Truthy(Member(data, "email_otp"))
  }

  /** The keys a successful login writes. */
  const AdoptedKeys: set<string> := {PS.SessionKey, PS.AuthCodeKey, PS.UserDataKey}

  /** Persist what an OTP login returned and become authenticated with that
      code: session, code and user data, in that order. */
  function Adopt(h: Hook, p: Platform, code: string, session: Value, user: Value): (r: Hook)
    ensures r.state == AuthState(true, false, user, Str(code), None)
    ensures r.retries == h.retries && r.urlCode == h.urlCode && r.initialised == h.initialised
    ensures forall k :: PS.Accepts(h.store, k) ==>
      && PS.SessionKey in PS.Of(r.store, k).slots
      && PS.Of(r.store, k).slots[PS.SessionKey] == PS.Serialized(p.codec, session, p.now)
      && PS.AuthCodeKey in PS.Of(r.store, k).slots
      && PS.Of(r.store, k).slots[PS.AuthCodeKey] == PS.Serialized(p.codec, Str(code), p.now)
      && PS.UserDataKey in PS.Of(r.store, k).slots
      && PS.Of(r.store, k).slots[PS.UserDataKey] == PS.Serialized(p.codec, user, p.now)
    ensures forall k :: !PS.Accepts(h.store, k) ==> PS.Of(r.store, k).slots == PS.Of(h.store, k).slots
    ensures forall k :: PS.Of(r.store, k).slots - AdoptedKeys == PS.Of(h.store, k).slots - AdoptedKeys
    ensures r.store.dbOpen == h.store.dbOpen
  {
    AdoptWrites(h.store, p.codec, code, session, user, p.now);
    h.(store := AdoptedStore(h.store, p.codec, code, session, user, p.now),
       state := AuthState(true, false, user, Str(code), None))
  }

  /** The three saves of a successful login, in order. */
  function AdoptedStore(st: PS.Storage, codec: Codec, code: string, session: Value, user: Value, now: int): PS.Storage {
    var s1 := PS.SaveSession(st, codec, session, now);
    var s2 := PS.SaveAuthCode(s1, codec, code, now);
    PS.SaveUserData(s2, codec, user, now)
  }

  lemma AdoptWrites(st: PS.Storage, codec: Codec, code: string, session: Value, user: Value, now: int)
    ensures
      var r := AdoptedStore(st, codec, code, session, user, now);
      && r.dbOpen == st.dbOpen
      && (forall k :: PS.Of(r, k).slots - AdoptedKeys == PS.Of(st, k).slots - AdoptedKeys)
      && (forall k :: !PS.Accepts(st, k) ==> PS.Of(r, k).slots == PS.Of(st, k).slots)
      && (forall k :: PS.Accepts(st, k) ==>
            && PS.SessionKey in PS.Of(r, k).slots
            && PS.Of(r, k).slots[PS.SessionKey] == PS.Serialized(codec, session, now)
            && PS.AuthCodeKey in PS.Of(r, k).slots
            && PS.Of(r, k).slots[PS.AuthCodeKey] == PS.Serialized(codec, Str(code), now)
            && PS.UserDataKey in PS.Of(r, k).slots
            && PS.Of(r, k).slots[PS.UserDataKey] == PS.Serialized(codec, user, now))
  {
    forall k {
      AdoptWritesAt(st, codec, code, session, user, now, k);
    }
  }

  /** The three saves, seen from one backend. */
  lemma AdoptWritesAt(st: PS.Storage, codec: Codec, code: string, session: Value, user: Value, now: int, k: PS.Kind)
    ensures
      var r := AdoptedStore(st, codec, code, session, user, now);
      && r.dbOpen == st.dbOpen
      && PS.Of(r, k).slots - AdoptedKeys == PS.Of(st, k).slots - AdoptedKeys
      && (!PS.Accepts(st, k) ==> PS.Of(r, k).slots == PS.Of(st, k).slots)
      && (PS.Accepts(st, k) ==>
            && PS.SessionKey in PS.Of(r, k).slots
            && PS.Of(r, k).slots[PS.SessionKey] == PS.Serialized(codec, session, now)
            && PS.AuthCodeKey in PS.Of(r, k).slots
            && PS.Of(r, k).slots[PS.AuthCodeKey] == PS.Serialized(codec, Str(code), now)
            && PS.UserDataKey in PS.Of(r, k).slots
            && PS.Of(r, k).slots[PS.UserDataKey] == PS.Serialized(codec, user, now))
  {
    var s1 := PS.SaveEverywhere(st, codec, PS.SessionKey, session, now);
    var s2 := PS.SaveEverywhere(s1, codec, PS.AuthCodeKey, Str(code), now);
    var s3 := PS.SaveEverywhere(s2, codec, PS.UserDataKey, user, now);
    assert s3 == AdoptedStore(st, codec, code, session, user, now);
    var a := PS.Of(st, k).slots;
    if PS.Accepts(st, k) {
      assert PS.Accepts(s1, k) && PS.Accepts(s2, k);
      var b := a[PS.SessionKey := PS.Serialized(codec, session, now)]
                [PS.AuthCodeKey := PS.Serialized(codec, Str(code), now)]
                [PS.UserDataKey := PS.Serialized(codec, user, now)];
      assert PS.Of(s3, k).slots == b;
      assert b - AdoptedKeys == a - AdoptedKeys by {
        forall key | key in a - AdoptedKeys ensures key in b - AdoptedKeys && (b - AdoptedKeys)[key] == (a - AdoptedKeys)[key] {
          assert key !in AdoptedKeys;
        }
        assert (b - AdoptedKeys).Keys == (a - AdoptedKeys).Keys;
      }
    } else {
      assert !PS.Accepts(s1, k) && !PS.Accepts(s2, k);
      assert PS.Of(s3, k).slots == a;
    }
  }

  /** `silentReauth(code)`: exchange the stored code for an OTP and log in
      with it. A thrown error counts one retry, and so does a `null` reply,
      on which `data.ok` throws; a rejected reply blanks the stored code
      only once `MAX_RETRIES` thrown errors have been counted; success
      resets the count. */
  function SilentReauth(h: Hook, p: Platform, code: string, ex: ExchangeAnswer, ver: VerifyAnswer): (r: Step)
    ensures r.ok <==> ex.Reply? && Accepted(ex.data) && ver.Verified? && !ver.failed && Truthy(ver.session)
    ensures r.ok ==> r.hook == Adopt(h, p, code, ver.session, ver.user).(retries := 0)
    ensures ex.FetchThrew? || (ex.Reply? && Nullish(ex.data)) || (ex.Reply? && Accepted(ex.data) && ver.VerifyThrew?) ==>
      !r.ok && r.hook == h.(retries := h.retries + 1)
    ensures ex.Reply? && !Nullish(ex.data) && !Accepted(ex.data) && h.retries >= MaxRetries ==>
      !r.ok && r.hook == h.(store := PS.SaveAuthCode(h.store, p.codec, "", p.now))
    ensures ex.Reply? && !Nullish(ex.data) && !Accepted(ex.data) && h.retries < MaxRetries ==>
      !r.ok && r.hook == h
    ensures ex.Reply? && Accepted(ex.data) && ver.Verified? && !r.ok ==> r.hook == h
  {
    match ex
    case FetchThrew => Step(false, h.(retries := h.retries + 1))
    case Reply(data) =>
      if Nullish(data) then Step(false, h.(retries := h.retries + 1))
      else if !Accepted(data) then
        if h.retries >= MaxRetries then Step(false, h.(store := PS.SaveAuthCode(h.store, p.codec, "", p.now)))
        else Step(false, h)
      else
        match ver
        case VerifyThrew => Step(false, h.(retries := h.retries + 1))
        case Verified(failed, session, user) =>
          if failed || !Truthy(session) then Step(false, h)
          else Step(true, Adopt(h, p, code, session, user).(retries := 0))
  }

  /** `handleInstallCode(code)`: the same exchange for a code from the URL,
      without retry bookkeeping. */
  function HandleInstallCode(h: Hook, p: Platform, code: string, ex: ExchangeAnswer, ver: VerifyAnswer): (r: Step)
    ensures r.ok <==> ex.Reply? && Accepted(ex.data) && ver.Verified? && !ver.failed && Truthy(ver.session)
    ensures r.ok ==> r.hook == Adopt(h, p, code, ver.session, ver.user)
    ensures !r.ok ==> r.hook == h
  {
    if ex.FetchThrew? || !Accepted(ex.data) then Step(false, h)
    else if ver.VerifyThrew? || ver.failed || !Truthy(ver.session) then Step(false, h)
    else Step(true, Adopt(h, p, code, ver.session, ver.user))
  }

  /** Whether the stored session has both tokens. */
  predicate Restorable(saved: Value) {
    Truthy(Member(saved, "access_token")) && Truthy(Member(saved, "refresh_token"))
  }

  /** `recoverSession()`, in its order: a live Supabase session; the saved
      session restored with `setSession`; the saved code; the code in the
      URL (cleared from the URL on success); otherwise signed out. A failing
      `getSession` yields the error state. Reads from the store write their
      hit back, as `getFromAnywhere` does. */
  function RecoverSession(h: Hook, p: Platform, c: Calls): (r: Step)
    ensures r.ok == r.hook.state.isAuthenticated
    ensures !r.hook.state.isLoading
    ensures r.hook.initialised == h.initialised
    ensures r.hook.state.error.Some? <==> c.current.GetThrew?
    ensures c.current.GetThrew? ==> r.hook == h.(state := AuthState(false, false, Null, Null, Some(RecoverFailed)))
  {
    match c.current
    case GetThrew => Step(false, h.(state := AuthState(false, false, Null, Null, Some(RecoverFailed))))
    case Current(live) =>
      if Truthy(Member(live, "user")) then AdoptLive(h, p, live)
      else
        var saved := PS.GetSession(h.store, p.codec, p.ios, p.now);
        var savedCode := PS.GetAuthCode(saved.store, p.codec, p.ios, p.now);
        FromSaved(h.(store := savedCode.store), p, c, saved.value, savedCode.value)
  }

  /** Step 1: a live session is saved and adopted, with the stored code. */
  function AdoptLive(h: Hook, p: Platform, live: Value): (r: Step)
    ensures r.ok && r.hook.state.isAuthenticated && !r.hook.state.isLoading && r.hook.state.error.None?
    ensures r.hook.state.user == Member(live, "user")
    ensures r.hook.initialised == h.initialised && r.hook.retries == h.retries && r.hook.urlCode == h.urlCode
  {
    var s1 := PS.SaveSession(h.store, p.codec, live, p.now);
    var code := PS.GetAuthCode(s1, p.codec, p.ios, p.now);
    Step(true, h.(store := code.store, state := AuthState(true, false, Member(live, "user"), code.value, None)))
  }

  /** Steps 2 to 5, given what the store held under `sp_session` and
      `sp_auth_code`. */
  function FromSaved(h: Hook, p: Platform, c: Calls, savedSession: Value, savedCode: Value): (r: Step)
    ensures r.ok == r.hook.state.isAuthenticated
    ensures !r.hook.state.isLoading && r.hook.state.error.None?
    ensures r.hook.initialised == h.initialised
  {
    if Restorable(savedSession) && Truthy(c.restored) then
      var s := PS.SaveSession(h.store, p.codec, c.restored, p.now);
      Step(true, h.(store := s, state := AuthState(true, false, Member(c.restored, "user"), savedCode, None)))
    else ViaCodes(h, p, c, savedCode)
  }

  /** Steps 3 to 5: the stored code, then the URL code, then signed out. */
  function ViaCodes(h: Hook, p: Platform, c: Calls, savedCode: Value): (r: Step)
    ensures r.ok == r.hook.state.isAuthenticated
    ensures !r.hook.state.isLoading && r.hook.state.error.None?
    ensures r.hook.initialised == h.initialised
    ensures StoredAttempt(h, p, c, savedCode).ok ==> r == StoredAttempt(h, p, c, savedCode)
    ensures !StoredAttempt(h, p, c, savedCode).ok && Given(h.urlCode) ==>
      var viaUrl := HandleInstallCode(StoredAttempt(h, p, c, savedCode).hook, p, h.urlCode.value, c.urlExchange, c.urlVerify);
      (r.ok <==> viaUrl.ok) && (viaUrl.ok ==> r.hook == viaUrl.hook.(urlCode := None))
    ensures !r.ok ==> r.hook == StoredAttempt(h, p, c, savedCode).hook.(state := SignedOutState)
    ensures !r.ok ==> r.hook.state == SignedOutState && r.hook.urlCode == h.urlCode
  {
    var viaCode := StoredAttempt(h, p, c, savedCode);
    if viaCode.ok then viaCode
    else
      var h2 := viaCode.hook;
      var viaUrl :=
        if h2.urlCode.Some? && |h2.urlCode.value| > 0 then
          HandleInstallCode(h2, p, h2.urlCode.value, c.urlExchange, c.urlVerify)
        else Step(false, h2);
      if viaUrl.ok then Step(true, viaUrl.hook.(urlCode := None))
      else Step(false, h2.(state := SignedOutState))
  }

  /** Step 3 alone: `silentReauth` with the stored code when there is one;
      nothing happens otherwise. The URL is never touched. */
  function StoredAttempt(h: Hook, p: Platform, c: Calls, savedCode: Value): (r: Step)
    ensures r.hook.urlCode == h.urlCode && r.hook.initialised == h.initialised
    ensures CodeOf(savedCode).None? ==> r == Step(false, h)
  {
    if CodeOf(savedCode).Some? then SilentReauth(h, p, CodeOf(savedCode).value, c.savedExchange, c.savedVerify)
    else Step(false, h)
  }

  /** `initPersistence()`: runs `init()` once per hook instance. */
  function InitPersistence(h: Hook, p: Platform, dbOpened: bool): (r: Hook)
    ensures r.initialised
    ensures h.initialised ==> r == h
    ensures !h.initialised ==> r.store == PS.Init(h.store, p.codec, dbOpened, p.ios, p.now)
    ensures r.state == h.state && r.retries == h.retries && r.urlCode == h.urlCode
  {
    if h.initialised then h
    else h.(initialised := true, store := PS.Init(h.store, p.codec, dbOpened, p.ios, p.now))
  }

  /** `initRef` makes initialisation happen once: a second call, whatever
      the database does this time, changes nothing, and the store is the
      first call's `init()`. */
  lemma InitOnce(h: Hook, p: Platform, first: bool, second: bool)
    ensures InitPersistence(InitPersistence(h, p, first), p, second) == InitPersistence(h, p, first)
    ensures !h.initialised ==>
      InitPersistence(InitPersistence(h, p, first), p, second).store == PS.Init(h.store, p.codec, first, p.ios, p.now)
  {
  }

  /** The mount effect's `setup()`: initialise, then recover. */
  function Mount(h: Hook, p: Platform, dbOpened: bool, c: Calls): (r: Step)
    ensures r.hook.initialised && !r.hook.state.isLoading
    ensures r.ok == r.hook.state.isAuthenticated
    ensures r.hook.state.error.Some? <==> c.current.GetThrew?
    ensures c.current.Current? && Truthy(Member(c.current.session, "user")) ==>
      r.ok && r.hook.state.user == Member(c.current.session, "user") && r.hook.urlCode == h.urlCode
  {
    RecoverSession(InitPersistence(h, p, dbOpened), p, c)
  }

  /** `logout()`: sign out, clear every persistent key, reset the state. A
      failing `signOut` leaves everything as it was. */
  function Logout(h: Hook, signOutThrows: bool): (r: Hook)
    ensures signOutThrows ==> r == h
    ensures !signOutThrows ==> r.state == SignedOutState && r.store == PS.ClearAll(h.store)
    ensures r.retries == h.retries && r.urlCode == h.urlCode
  {
    if signOutThrows then h else h.(store := PS.ClearAll(h.store), state := SignedOutState)
  }

  /** `checkAuth()` as closed over an `isAuthenticated` value: nothing
      unless that value is true; then recovery only when Supabase reports no
      session. A failing probe rejects without changing anything. */
  function CheckAuth(authenticated: bool, h: Hook, p: Platform, probe: SessionAnswer, c: Calls): (r: Hook)
    ensures !authenticated ==> r == h
    ensures authenticated && probe.Current? && !Truthy(probe.session) ==> r == RecoverSession(h, p, c).hook
    ensures probe.Current? && Truthy(probe.session) ==> r == h
    ensures probe.GetThrew? ==> r == h
  {
    if !authenticated then h
    else match probe
      case GetThrew => h
      case Current(s) => if !Truthy(s) then RecoverSession(h, p, c).hook else h
  }

  /** A Supabase auth event and its session. */
  datatype AuthEvent = AuthEvent(name: string, session: Value)

  /** The `onAuthStateChange` listener. */
  function OnAuthEvent(h: Hook, p: Platform, e: AuthEvent): (r: Hook)
    ensures e.name == "SIGNED_IN" && Truthy(e.session) ==>
      r.state == h.state.(isAuthenticated := true, user := Member(e.session, "user"))
    ensures e.name == "SIGNED_OUT" ==> r == h.(state := h.state.(isAuthenticated := false, user := Null))
    ensures (e.name == "SIGNED_IN" || e.name == "TOKEN_REFRESHED") && Truthy(e.session) ==>
      r.store == PS.SaveSession(h.store, p.codec, e.session, p.now)
    ensures e.name == "TOKEN_REFRESHED" ==> r.state == h.state
    ensures !((e.name == "SIGNED_IN" || e.name == "TOKEN_REFRESHED") && Truthy(e.session)) ==> r.store == h.store
    ensures e.name !in {"SIGNED_IN", "SIGNED_OUT", "TOKEN_REFRESHED"} ==> r == h
    ensures e.name != "SIGNED_OUT" && !Truthy(e.session) ==> r == h
    ensures r.state.code == h.state.code && r.state.error == h.state.error && r.state.isLoading == h.state.isLoading
    ensures r.retries == h.retries && r.urlCode == h.urlCode && r.initialised == h.initialised
  {
    if e.name == "SIGNED_IN" && Truthy(e.session) then
      h.(store := PS.SaveSession(h.store, p.codec, e.session, p.now),
         state := h.state.(isAuthenticated := true, user := Member(e.session, "user")))
    else if e.name == "SIGNED_OUT" then h.(state := h.state.(isAuthenticated := false, user := Null))
    else if e.name == "TOKEN_REFRESHED" && Truthy(e.session) then
      h.(store := PS.SaveSession(h.store, p.codec, e.session, p.now))
    else h
  }

  /** The window `focus` handler: synchronise the storages. */
  function OnFocus(h: Hook, p: Platform): (r: Hook)
    ensures r.state == h.state && r.retries == h.retries
    ensures r.urlCode == h.urlCode && r.initialised == h.initialised
    ensures r.store == PS.SyncStorages(h.store, p.codec, p.ios, p.now)
  {
    h.(store := PS.SyncStorages(h.store, p.codec, p.ios, p.now))
  }

  // ---------------------------------------------------------------------
  // The re-check triggers: as written, and as evidently intended
  // ---------------------------------------------------------------------

  /** The mount effect has an empty dependency list, so the interval, the
      visibility handler and the service-worker message handler all hold
      the first render's `checkAuth` and `authState`, whose
      `isAuthenticated` is the initial `false`. */
  const CapturedAuthenticated: bool := Loading.isAuthenticated

  /** The five-minute tick as written. */
  function TickAsWritten(h: Hook, p: Platform, probe: SessionAnswer, c: Calls): Hook {
    CheckAuth(CapturedAuthenticated, h, p, probe, c)
  }

  /** `visibilitychange` as written: gated on the captured flag, then the
      captured `checkAuth`. */
  function VisibleAsWritten(h: Hook, p: Platform, hidden: bool, probe: SessionAnswer, c: Calls): Hook {
    if !hidden && CapturedAuthenticated then CheckAuth(CapturedAuthenticated, h, p, probe, c) else h
  }

  /** A service-worker `CHECK_AUTH` message as written. */
  function MessageAsWritten(h: Hook, p: Platform, data: Value, probe: SessionAnswer, c: Calls): Hook {
    if Member(data, "type") == Str("CHECK_AUTH") then CheckAuth(CapturedAuthenticated, h, p, probe, c) else h
  }

  /** As written, none of the three triggers can ever change the hook. */
  lemma TriggersAreInert(h: Hook, p: Platform, hidden: bool, data: Value, probe: SessionAnswer, c: Calls)
    ensures TickAsWritten(h, p, probe, c) == h
    ensures VisibleAsWritten(h, p, hidden, probe, c) == h
    ensures MessageAsWritten(h, p, data, probe, c) == h
  {
  }

  /** The triggers reading the current state, as the hook's own returned
      `checkAuth` does. */
  function Tick(h: Hook, p: Platform, probe: SessionAnswer, c: Calls): (r: Hook)
    ensures !h.state.isAuthenticated ==> r == h
    ensures h.state.isAuthenticated && probe.Current? && !Truthy(probe.session) ==> r == RecoverSession(h, p, c).hook
    ensures probe.Current? && Truthy(probe.session) ==> r == h
    ensures probe.GetThrew? ==> r == h
  {
    CheckAuth(h.state.isAuthenticated, h, p, probe, c)
  }

  function Visible(h: Hook, p: Platform, hidden: bool, probe: SessionAnswer, c: Calls): (r: Hook)
    ensures hidden ==> r == h
    ensures !hidden ==> r == Tick(h, p, probe, c)
  {
    if !hidden && h.state.isAuthenticated then CheckAuth(h.state.isAuthenticated, h, p, probe, c) else h
  }

  function Message(h: Hook, p: Platform, data: Value, probe: SessionAnswer, c: Calls): (r: Hook)
    ensures Member(data, "type") != Str("CHECK_AUTH") ==> r == h
    ensures Member(data, "type") == Str("CHECK_AUTH") ==> r == Tick(h, p, probe, c)
  {
    if Member(data, "type") == Str("CHECK_AUTH") then CheckAuth(h.state.isAuthenticated, h, p, probe, c) else h
  }

  /** A state in which the lapse matters: authenticated, but the Supabase
      session is gone and only the stored install code can bring it back. */
  predicate LapsedWithCode(h: Hook, p: Platform, c: Calls, probe: SessionAnswer) {
    && h.state.isAuthenticated
    && probe == Current(Null)
    && c.current == Current(Null)
    && !Restorable(PS.GetSession(h.store, p.codec, p.ios, p.now).value)
    && CodeOf(PS.GetAuthCode(PS.GetSession(h.store, p.codec, p.ios, p.now).store, p.codec, p.ios, p.now).value).Some?
    && c.savedExchange.Reply? && Accepted(c.savedExchange.data)
    && c.savedVerify.Verified? && !c.savedVerify.failed && Truthy(c.savedVerify.session)
  }

  /** The corrected tick re-authenticates a lapsed session from the stored
      code (and resets the retry count); the tick as written leaves it
      lapsed. */
  lemma TickRecoversLapse(h: Hook, p: Platform, c: Calls, probe: SessionAnswer)
    requires LapsedWithCode(h, p, c, probe)
    ensures Tick(h, p, probe, c).state.isAuthenticated
    ensures Tick(h, p, probe, c).state.user == c.savedVerify.user
    ensures Tick(h, p, probe, c).retries == 0
    ensures TickAsWritten(h, p, probe, c) == h
  {
  }

  /** The store of the concrete lapse: `sp_auth_code` in `localStorage`
      only. */
  function LapseStore(codec: Codec, t: int): PS.Storage {
    var empty := PS.Backend(map[], true, true);
    PS.Storage(true, empty, empty, PS.Backend(map[PS.AuthCodeKey := PS.Serialized(codec, Str("abc"), t)], true, true), empty)
  }

  /** In that store no session is saved and the code reads back. */
  lemma LapseStoreReads(codec: Codec, t: int)
    requires Faithful(codec, PS.Wrap(Str("abc"), t))
    ensures PS.GetSession(LapseStore(codec, t), codec, false, t) == PS.Read(LapseStore(codec, t), Null)
    ensures PS.GetAuthCode(LapseStore(codec, t), codec, false, t).value == Str("abc")
  {
    var st := LapseStore(codec, t);
    forall k ensures !PS.Yields(st, codec, k, PS.SessionKey) {
      assert PS.SessionKey !in PS.Of(st, k).slots;
    }
    PS.ReadMiss(st, codec, PS.SessionKey, false, t);
    assert PS.ReadOrder(false)[0] == PS.Local;
    assert PS.Parsed(st, codec, PS.Local, PS.AuthCodeKey) == Some(PS.Wrap(Str("abc"), t));
    PS.ReadPriority(st, codec, PS.AuthCodeKey, false, t, 0);
  }

  /** The hook of the concrete lapse: authenticated, one retry counted. */
  function LapseHook(codec: Codec, t: int): Hook {
    Hook(AuthState(true, false, Null, Str("abc"), None), true, 1, LapseStore(codec, t), None)
  }

  /** The calls of the concrete lapse: no Supabase session, and the stored
      code exchanges and logs in. */
  function LapseCalls(): Calls {
    Calls(Current(Null), Null, Reply(Obj(map["ok" := Bool(true), "email_otp" := Str("123456")])),
          Verified(false, Str("session"), Str("user")), FetchThrew, VerifyThrew)
  }

  /** A concrete lapse: with the stored code readable from `localStorage`,
      the corrected tick re-authenticates as the verified user, while the
      tick as written does nothing. */
  lemma LapseExample(codec: Codec, t: int)
    requires Faithful(codec, PS.Wrap(Str("abc"), t))
    ensures Tick(LapseHook(codec, t), Platform(codec, false, t), Current(Null), LapseCalls()).state.user == Str("user")
    ensures Tick(LapseHook(codec, t), Platform(codec, false, t), Current(Null), LapseCalls()).retries == 0
    ensures TickAsWritten(LapseHook(codec, t), Platform(codec, false, t), Current(Null), LapseCalls()).retries == 1
  {
    var h := LapseHook(codec, t);
    var c := LapseCalls();
    var p := Platform(codec, false, t);
    LapseStoreReads(codec, t);
    assert !Restorable(Null);
    assert Accepted(c.savedExchange.data);
    assert LapsedWithCode(h, p, c, Current(Null));
    TickRecoversLapse(h, p, c, Current(Null));
  }

  // ---------------------------------------------------------------------
  // Properties
  // ---------------------------------------------------------------------

  /** A live Supabase session wins: it is saved everywhere and adopted, and
      nothing else is tried. */
  lemma LiveSessionFirst(h: Hook, p: Platform, c: Calls)
    requires c.current.Current? && Truthy(Member(c.current.session, "user"))
    ensures
      var r := RecoverSession(h, p, c);
      && r.ok && r.hook.state.user == Member(c.current.session, "user")
      && r.hook.retries == h.retries && r.hook.urlCode == h.urlCode
      && (forall k :: PS.Accepts(h.store, k) ==>
            PS.SessionKey in PS.Of(r.hook.store, k).slots
            && PS.Of(r.hook.store, k).slots[PS.SessionKey] == PS.Serialized(p.codec, c.current.session, p.now))
  {
    var s1 := PS.SaveSession(h.store, p.codec, c.current.session, p.now);
    var code := PS.GetAuthCode(s1, p.codec, p.ios, p.now);
    forall k | PS.Accepts(h.store, k)
      ensures PS.SessionKey in PS.Of(code.store, k).slots
      ensures PS.Of(code.store, k).slots[PS.SessionKey] == PS.Serialized(p.codec, c.current.session, p.now)
    {
      assert PS.Of(code.store, k).slots - {PS.AuthCodeKey} == PS.Of(s1, k).slots - {PS.AuthCodeKey};
      assert PS.SessionKey in PS.Of(s1, k).slots - {PS.AuthCodeKey};
    }
  }

  /** Without a live session, a restorable saved session is tried before
      any code exchange: when it restores, no retry is counted and the URL
      is untouched. */
  lemma SavedSessionBeforeCode(h: Hook, p: Platform, c: Calls)
    requires c.current == Current(Null) && Truthy(c.restored)
    requires Restorable(PS.GetSession(h.store, p.codec, p.ios, p.now).value)
    ensures
      var r := RecoverSession(h, p, c);
      r.ok && r.hook.state.user == Member(c.restored, "user") && r.hook.retries == h.retries && r.hook.urlCode == h.urlCode
  {
  }

  /** With nothing to recover from, recovery ends signed out, having
      written only what its reads wrote back. */
  lemma NothingToRecover(h: Hook, p: Platform, c: Calls)
    requires c.current == Current(Null)
    requires !Restorable(PS.GetSession(h.store, p.codec, p.ios, p.now).value)
    requires CodeOf(PS.GetAuthCode(PS.GetSession(h.store, p.codec, p.ios, p.now).store, p.codec, p.ios, p.now).value).None?
    requires h.urlCode.None?
    ensures RecoverSession(h, p, c) == Step(false, h.(
      store := PS.GetAuthCode(PS.GetSession(h.store, p.codec, p.ios, p.now).store, p.codec, p.ios, p.now).store,
      state := SignedOutState))
  {
  }

  /** A restorable saved session whose `setSession` yields no session falls
      through to the code steps, exactly as if there had been nothing to
      restore: the outcome is that of the stored code and then the URL
      code. */
  lemma FailedRestoreFallsThrough(h: Hook, p: Platform, c: Calls)
    requires c.current == Current(Null) && !Truthy(c.restored)
    ensures
      var saved := PS.GetSession(h.store, p.codec, p.ios, p.now);
      var savedCode := PS.GetAuthCode(saved.store, p.codec, p.ios, p.now);
      RecoverSession(h, p, c) == ViaCodes(h.(store := savedCode.store), p, c, savedCode.value)
  {
  }

  /** The stored code is tried before the code in the URL: when the stored
      code logs in, the outcome is that of `silentReauth`, the URL code is
      neither exchanged nor cleared, and whatever the URL exchange would
      have answered makes no difference. */
  lemma SavedCodeBeforeUrlCode(h: Hook, p: Platform, c: Calls, urlExchange: ExchangeAnswer, urlVerify: VerifyAnswer)
    requires c.current == Current(Null)
    requires !Restorable(PS.GetSession(h.store, p.codec, p.ios, p.now).value) || !Truthy(c.restored)
    requires CodeOf(PS.GetAuthCode(PS.GetSession(h.store, p.codec, p.ios, p.now).store, p.codec, p.ios, p.now).value).Some?
    requires c.savedExchange.Reply? && Accepted(c.savedExchange.data)
    requires c.savedVerify.Verified? && !c.savedVerify.failed && Truthy(c.savedVerify.session)
    ensures
      var saved := PS.GetSession(h.store, p.codec, p.ios, p.now);
      var savedCode := PS.GetAuthCode(saved.store, p.codec, p.ios, p.now);
      var code := CodeOf(savedCode.value).value;
      var r := RecoverSession(h, p, c);
      && r == SilentReauth(h.(store := savedCode.store), p, code, c.savedExchange, c.savedVerify)
      && r.ok && r.hook.urlCode == h.urlCode
      && r == RecoverSession(h, p, c.(urlExchange := urlExchange, urlVerify := urlVerify))
  {
  }

  /** Installation from the URL: when nothing saved can authenticate (no
      stored code, or one whose exchange or login fails, as after a
      reinstall), recovery adopts the URL code and drops it from the URL,
      keeping the retry count the failed stored attempt left. */
  lemma UrlCodeInstalls(h: Hook, p: Platform, c: Calls)
    requires c.current == Current(Null)
    requires !Restorable(PS.GetSession(h.store, p.codec, p.ios, p.now).value) || !Truthy(c.restored)
    requires
      var savedCode := PS.GetAuthCode(PS.GetSession(h.store, p.codec, p.ios, p.now).store, p.codec, p.ios, p.now).value;
      CodeOf(savedCode).None?
      || !(c.savedExchange.Reply? && Accepted(c.savedExchange.data)
           && c.savedVerify.Verified? && !c.savedVerify.failed && Truthy(c.savedVerify.session))
    requires h.urlCode.Some? && |h.urlCode.value| > 0
    requires c.urlExchange.Reply? && Accepted(c.urlExchange.data)
    requires c.urlVerify.Verified? && !c.urlVerify.failed && Truthy(c.urlVerify.session)
    ensures
      var saved := PS.GetSession(h.store, p.codec, p.ios, p.now);
      var savedCode := PS.GetAuthCode(saved.store, p.codec, p.ios, p.now);
      var r := RecoverSession(h, p, c);
      && r.ok && r.hook.urlCode.None?
      && r.hook.state == AuthState(true, false, c.urlVerify.user, Str(h.urlCode.value), None)
      && r.hook.retries == StoredAttempt(h.(store := savedCode.store), p, c, savedCode.value).hook.retries
  {
  }

  /** One re-authentication attempt per entry: the code is blanked on a
      rejected reply once the count has reached `MAX_RETRIES`. */
  function Attempts(h: Hook, p: Platform, code: string, answers: seq<ExchangeAnswer>, ver: VerifyAnswer): Hook
    decreases |answers|
  {
    if |answers| == 0 then h
    else Attempts(SilentReauth(h, p, code, answers[0], ver).hook, p, code, answers[1..], ver)
  }

  /** Rejected replies alone never blank the stored code while fewer than
      `MAX_RETRIES` errors have been thrown: only thrown errors are
      counted, so no run of "invalid code" replies reaches the limit. */
  lemma {:induction false} RejectionsNeverBlank(h: Hook, p: Platform, code: string, answers: seq<ExchangeAnswer>, ver: VerifyAnswer)
    requires h.retries < MaxRetries
    requires forall i :: 0 <= i < |answers| ==> answers[i].Reply? && !Nullish(answers[i].data) && !Accepted(answers[i].data)
    ensures Attempts(h, p, code, answers, ver) == h
    decreases |answers|
  {
    if |answers| > 0 {
      assert SilentReauth(h, p, code, answers[0], ver).hook == h;
      RejectionsNeverBlank(h, p, code, answers[1..], ver);
    }
  }

  /** Thrown errors are what is counted: a run of failed fetches raises the
      count by its length and leaves the store alone. */
  lemma {:induction false} ThrowsAreCounted(h: Hook, p: Platform, code: string, n: nat, ver: VerifyAnswer)
    ensures Attempts(h, p, code, seq(n, _ => FetchThrew), ver) == h.(retries := h.retries + n)
    decreases n
  {
    if n > 0 {
      var answers := seq(n, _ => FetchThrew);
      assert answers[1..] == seq(n - 1, _ => FetchThrew);
      ThrowsAreCounted(h.(retries := h.retries + 1), p, code, n - 1, ver);
    }
  }

  /** Once blanked, the stored code reads back as the empty string, which
      recovery does not try to exchange. */
  lemma BlankedCodeIsSkipped(st: PS.Storage, codec: Codec, t: int, ios: bool, now: int)
    requires Faithful(codec, PS.Wrap(Str(""), t))
    requires exists k :: PS.Accepts(st, k) && PS.Serves(st, k)
    requires forall k :: PS.Serves(st, k) ==> PS.Accepts(st, k)
    ensures
      var blanked := PS.SaveAuthCode(st, codec, "", t);
      && PS.GetAuthCode(blanked, codec, ios, now).value == Str("")
      && CodeOf(PS.GetAuthCode(blanked, codec, ios, now).value).None?
  {
    PS.SaveThenGet(st, codec, PS.AuthCodeKey, Str(""), t, ios, now);
  }

  /** A session delivered by `SIGNED_IN` or `TOKEN_REFRESHED` is what the
      store reads back afterwards, provided some backend both takes writes
      and serves reads and none serves reads it refused to take. */
  lemma SignedInSessionReadsBack(h: Hook, p: Platform, e: AuthEvent, ios: bool, now: int)
    requires (e.name == "SIGNED_IN" || e.name == "TOKEN_REFRESHED") && Truthy(e.session)
    requires Faithful(p.codec, PS.Wrap(e.session, p.now))
    requires exists k :: PS.Accepts(h.store, k) && PS.Serves(h.store, k)
    requires forall k :: PS.Serves(h.store, k) ==> PS.Accepts(h.store, k)
    ensures PS.GetSession(OnAuthEvent(h, p, e).store, p.codec, ios, now).value == e.session
  {
    PS.SaveThenGet(h.store, p.codec, PS.SessionKey, e.session, p.now, ios, now);
  }

  /** After a successful logout, and with no live session and no code in
      the URL, recovery finds nothing: the cleared keys read back as
      nothing. */
  lemma LogoutThenRecover(h: Hook, p: Platform, c: Calls)
    requires forall k :: PS.Serves(h.store, k) ==> PS.Accepts(h.store, k)
    requires c.current == Current(Null) && h.urlCode.None?
    ensures
      var out := Logout(h, false);
      RecoverSession(out, p, c) == Step(false, out)
  {
    var out := Logout(h, false);
    var cleared := PS.ClearAll(h.store);
    PS.ClearThenGet(h.store, p.codec, PS.SessionKey, p.ios, p.now);
    PS.ClearThenGet(h.store, p.codec, PS.AuthCodeKey, p.ios, p.now);
  }
}

=== FILE: base.dfy ===
/** Small failure-compatible wrapper shared by every module of the model. */
module Base {

  /** `None` stands for JavaScript's `null`/`undefined` where the source uses
      them to mean "nothing here". */
  datatype Option<+T> = None | Some(value: T) {

    predicate IsFailure() {
      None?
    }

    function PropagateFailure<U>(): Option<U>
      requires None?
    {
      None
    }

    function Extract(): T
      requires Some?
    {
      value
    }

    /** The value, or `default` when absent (the source's `x ?? default`). */
    function GetOr(default: T): T {
      match this
      case Some(v) => v
      case None => default
    }
  }

  /** A string JavaScript treats as truthy: present and not empty. */
  predicate Given(s: Option<string>) {
    s.Some? && |s.value| > 0
  }

  /** `x || undefined` on an optional string. */
  function NonEmpty(s: Option<string>): (r: Option<string>)
    ensures r.Some? <==> Given(s)
    ensures r.Some? ==> r == s
  {
    if Given(s) then s else None
  }

  /** `a || fallback` on an optional string, such as `err?.message || 'Falha'`. */
  function OrElse(a: Option<string>, fallback: string): (r: string)
    ensures Given(a) ==> r == a.value
    ensures !Given(a) ==> r == fallback
  {
    if Given(a) then a.value else fallback
  }
}

=== FILE: cookies.dfy ===
/**
  The cookie fallback of the session backup (`setCookie`, `getCookie` and
  `deleteCookie` in src/lib/auth-persist.ts). The browser's cookie jar is an
  ordered list of live cookies; `document.cookie` renders the live ones as
  `name=value` joined by `"; "`, which `getCookie` splits apart again.
*/
module Cookies {
  import opened Base
  import opened Text
  import UriComponent

  /** Milliseconds in a day (`864e5`). */
  const DayMs: int := 86_400_000

  /** Browsers drop a cookie whose name and value together exceed 4096
      bytes (the minimum section 6.1 of RFC 6265 asks them to keep). */
  const MaxCookieSize: int := 4096

  /** One cookie as the browser keeps it: `expires` is in epoch milliseconds. */
  datatype Cookie = Cookie(name: string, value: string, expires: int)

  /** What a browser jar always satisfies: names carry no `=` or `;`, values
      no `;`, and one cookie per name (all cookies here share path `/`). */
  predicate WellFormed(jar: seq<Cookie>) {
    && (forall i :: 0 <= i < |jar| ==> '=' !in jar[i].name && ';' !in jar[i].name && ';' !in jar[i].value)
    && (forall i, j :: 0 <= i < j < |jar| ==> jar[i].name != jar[j].name)
  }

  /** The cookies that have not expired at `now`. */
  function Live(jar: seq<Cookie>, now: int): (live: seq<Cookie>)
    ensures forall c :: c in live <==> c in jar && now < c.expires
    ensures WellFormed(jar) ==> WellFormed(live)
  {
    if |jar| == 0 then []
    else
      var rest := Live(jar[1..], now);
      assert forall c :: c in jar[1..] ==> c in jar;
      if now < jar[0].expires then [jar[0]] + rest else rest
  }

  function Render(jar: seq<Cookie>): (parts: seq<string>)
    ensures |parts| == |jar|
    ensures forall i :: 0 <= i < |jar| ==> parts[i] == jar[i].name + "=" + jar[i].value
  {
    if |jar| == 0 then [] else [jar[0].name + "=" + jar[0].value] + Render(jar[1..])
  }

  /** `document.cookie` as read at time `now`. */
  function DocumentCookie(jar: seq<Cookie>, now: int): string {
    Join(Render(Live(jar, now)), "; ")
  }

  /** Index of the cookie named `name`, if any. */
  function IndexOf(jar: seq<Cookie>, name: string): (r: Option<nat>)
    ensures r.Some? ==> r.value < |jar| && jar[r.value].name == name
    ensures r.None? ==> forall i :: 0 <= i < |jar| ==> jar[i].name != name
  {
    if |jar| == 0 then None
    else if jar[0].name == name then Some(0)
    else match IndexOf(jar[1..], name)
      case None => None
      case Some(i) => Some(i + 1)
  }

  /** Whether the browser keeps `name=encodeURIComponent(value)`. The
      encoding is ASCII, so characters are bytes. */
  predicate Fits(name: string, value: string) {
    |name| + |UriComponent.Encode(value)| <= MaxCookieSize
  }

  /** `setCookie(name, value, days)`: assigning
      `name=encodeURIComponent(value); Expires=…` replaces the cookie of that
      name in place, or appends a new one; an oversized cookie is ignored. */
  function SetCookie(jar: seq<Cookie>, name: string, value: string, now: int, days: int): (jar': seq<Cookie>)
    requires '=' !in name && ';' !in name
    requires WellFormed(jar)
    ensures WellFormed(jar')
    ensures Fits(name, value) ==> Cookie(name, UriComponent.Encode(value), now + days * DayMs) in jar'
    ensures !Fits(name, value) ==> jar' == jar
    ensures forall c :: c in jar && c.name != name ==> c in jar'
    ensures forall c :: c in jar' && c.name != name ==> c in jar
  {
    var c := Cookie(name, UriComponent.Encode(value), now + days * DayMs);
    UriComponent.EncodeHasNo(value, ';');
    if !Fits(name, value) then jar
    else match IndexOf(jar, name)
      case Some(i) =>
        assert jar[i := c][i] == c;
        assert forall j :: 0 <= j < |jar| && j != i ==> jar[i := c][j] == jar[j];
        jar[i := c]
      case None => jar + [c]
  }

  /** `deleteCookie(name)`: an `Expires` in 1970 removes the cookie. */
  function DeleteCookie(jar: seq<Cookie>, name: string): (jar': seq<Cookie>)
    ensures forall c :: c in jar' <==> c in jar && c.name != name
    ensures WellFormed(jar) ==> WellFormed(jar')
  {
    if |jar| == 0 then []
    else
      var rest := DeleteCookie(jar[1..], name);
      assert forall c :: c in jar[1..] ==> c in jar;
      if jar[0].name == name then rest else [jar[0]] + rest
  }

  /** The first piece that starts with `prefix` (`parts.find(...)`). */
  function FindPart(parts: seq<string>, prefix: string): (r: Option<string>)
    ensures r.Some? ==> r.value in parts && StartsWith(r.value, prefix)
    ensures r.None? <==> forall i :: 0 <= i < |parts| ==> !StartsWith(parts[i], prefix)
  {
    if |parts| == 0 then None
    else if StartsWith(parts[0], prefix) then Some(parts[0])
    else FindPart(parts[1..], prefix)
  }

  /** `getCookie(name)` on the text of `document.cookie`: the first
      `"; "`-separated piece that starts with `name=`, everything after its
      first `=` rejoined and percent-decoded. `None` is the source's `null`,
      also returned where `decodeURIComponent` throws. */
  function GetCookie(doc: string, name: string): Option<string> {
    match FindPart(Split(doc, "; "), name + "=")
    case None => None
    case Some(part) => UriComponent.Decode(Join(Split(part, "=")[1..], "="))
  }

  // ---------------------------------------------------------------------
  // Properties
  // ---------------------------------------------------------------------

  /** `getCookie` yields `null` exactly when no piece starts with `name=`. */
  lemma GetCookieMissing(doc: string, name: string)
    requires forall p :: p in Split(doc, "; ") ==> !StartsWith(p, name + "=")
    ensures GetCookie(doc, name) == None
  {
  }

  /** When a piece is found, the value is the decoding of everything after
      `name=`, `=` signs included. */
  lemma GetCookieValue(doc: string, name: string, part: string)
    requires '=' !in name
    requires FindPart(Split(doc, "; "), name + "=") == Some(part)
    ensures GetCookie(doc, name) == UriComponent.Decode(part[|name| + 1..])
  {
    assert part == name + "=" + part[|name| + 1..];
    AfterFirst(name, '=', part[|name| + 1..]);
  }

  /** A piece `n=v` starts with `name=` only when `n == name`. */
  lemma PieceNamed(c: Cookie, name: string)
    requires '=' !in c.name && '=' !in name
    ensures StartsWith(c.name + "=" + c.value, name + "=") <==> c.name == name
  {
    var piece := c.name + "=" + c.value;
    if StartsWith(piece, name + "=") {
      var k := |c.name|;
      assert piece[k] == '=';
      assert piece[|name|] == (name + "=")[|name|] == '=';
      forall i | 0 <= i < |name|
        ensures piece[i] != '='
      {
        assert piece[i] == name[i] && name[i] in name;
      }
      forall i | 0 <= i < k
        ensures piece[i] != '='
      {
        assert piece[i] == c.name[i] && c.name[i] in c.name;
      }
      assert piece[..k] == c.name;
    }
  }

  lemma {:induction false} FindNamed(live: seq<Cookie>, name: string, k: nat)
    requires WellFormed(live) && '=' !in name
    requires k < |live| && live[k].name == name
    ensures FindPart(Render(live), name + "=") == Some(live[k].name + "=" + live[k].value)
    decreases k
  {
    PieceNamed(live[0], name);
    if k > 0 {
      assert live[0].name != name;
      assert Render(live)[1..] == Render(live[1..]);
      FindNamed(live[1..], name, k - 1);
    }
  }

  lemma RenderedPiecesHaveNoSemicolon(live: seq<Cookie>)
    requires WellFormed(live)
    ensures forall i :: 0 <= i < |Render(live)| ==> ';' !in Render(live)[i]
  {
    forall i | 0 <= i < |live|
      ensures ';' !in Render(live)[i]
    {
      var c := live[i];
      assert Render(live)[i] == c.name + "=" + c.value;
    }
  }

  /** Reading `document.cookie` finds the live cookie named `name`. */
  lemma ReadLiveCookie(jar: seq<Cookie>, now: int, c: Cookie)
    requires WellFormed(jar) && c in jar && now < c.expires
    ensures GetCookie(DocumentCookie(jar, now), c.name) == UriComponent.Decode(c.value)
  {
    var live := Live(jar, now);
    var k :| 0 <= k < |live| && live[k] == c;
    RenderedPiecesHaveNoSemicolon(live);
    SplitJoin(Render(live), "; ");
    FindNamed(live, c.name, k);
    GetCookieValue(DocumentCookie(jar, now), c.name, c.name + "=" + c.value);
    assert (c.name + "=" + c.value)[|c.name| + 1..] == c.value;
  }

  /** Round trip: until it expires, a cookie small enough to be kept by `setCookie` reads
      back as the very value that was written, whatever other cookies the jar
      holds. */
  lemma SetThenGet(jar: seq<Cookie>, name: string, value: string, t: int, days: int, now: int)
    requires WellFormed(jar) && '=' !in name && ';' !in name && Fits(name, value)
    requires now < t + days * DayMs
    ensures GetCookie(DocumentCookie(SetCookie(jar, name, value, t, days), now), name) == Some(value)
  {
    var c := Cookie(name, UriComponent.Encode(value), t + days * DayMs);
    ReadLiveCookie(SetCookie(jar, name, value, t, days), now, c);
    UriComponent.DecodeEncode(value);
  }

  /** After `deleteCookie(name)`, `getCookie(name)` is `null`. */
  lemma DeleteThenGet(jar: seq<Cookie>, name: string, now: int)
    requires WellFormed(jar) && '=' !in name
    ensures GetCookie(DocumentCookie(DeleteCookie(jar, name), now), name) == None
  {
    var live := Live(DeleteCookie(jar, name), now);
    var doc := DocumentCookie(DeleteCookie(jar, name), now);
    if |live| == 0 {
      assert doc == "";
      assert Split(doc, "; ") == [""];
    } else {
      RenderedPiecesHaveNoSemicolon(live);
      SplitJoin(Render(live), "; ");
      forall i | 0 <= i < |live|
        ensures !StartsWith(Render(live)[i], name + "=")
      {
        PieceNamed(live[i], name);
      }
    }
  }
}

=== FILE: generate_link.dfy ===
/**
  The `generate-link` edge function (supabase/functions/generate-link/index.ts)
  as a function from a request, the function's environment, the answers of
  the auth admin API and the database, and the current time, to a response
  and the new database contents. It serves CORS preflights, mints install
  codes (`flow=create-install`), exchanges them once for an e-mail OTP
  (`flow=exchange-install`), and otherwise generates a magic link.

  Every remote call (`generateLink`, table `select`/`insert`/`update`/
  `upsert`, `crypto.randomUUID`, `new URL`) is an oracle answer carried in
  `Oracle`. Requests are handled one after another: the check of `used_at`
  and its later update are not atomic in the source, and concurrent
  requests are outside this model.
*/
module GenerateLink {
  import opened Base

  const AllowedOrigins: set<string> := {
    "https://savvy-clinic-connect.lovable.app",
    "http://localhost:5173",
    "http://localhost:4173"
  }

  /** Lifetime of an install code: 30 minutes, in milliseconds. */
  const InstallTtlMs: int := 30 * 60 * 1000

  const CreateInstall: string := "create-install"
  const ExchangeInstall: string := "exchange-install"

  const MissingConfig: string := "Servidor sem configuração do Supabase"
  const Unauthorized: string := "Unauthorized"
  const EmailRequired: string := "email é obrigatório"
  const PrepareUserFailed: string := "Falha ao preparar usuário"
  const InsertFailed: string := "Falha ao gerar código de instalação"
  const CodeRequired: string := "code é obrigatório"
  const ValidateFailed: string := "Erro ao validar código"
  const InvalidCode: string := "Código inválido"
  const UsedCode: string := "Código já utilizado"
  const ExpiredCode: string := "Código expirado"
  const OtpFailed: string := "Falha ao gerar OTP"
  const MagicLinkFailed: string := "Falha ao gerar magic link"

  /** Query parameters; `None` where `searchParams.get` returns `null`. */
  datatype Params = Params(
    email: Option<string>,
    name: Option<string>,
    whId: Option<string>,
    inst: Option<string>,
    redirectTo: Option<string>,
    mode: Option<string>,
    flow: Option<string>,
    code: Option<string>)

  datatype Request = Request(httpMethod: string, origin: Option<string>, installToken: Option<string>, params: Params)

  /** `SUPABASE_URL`, `SUPABASE_SERVICE_ROLE_KEY`, `INSTALL_API_TOKEN`; an
      unset variable is the empty string. */
  datatype Env = Env(supabaseUrl: string, serviceRole: string, installToken: string)

  /** What `new URL(redirect_to)` yields when it does not throw. */
  datatype ParsedUrl = ParsedUrl(origin: string, href: string)

  datatype User = User(id: string, metadataName: Option<string>, hasCreatedAt: bool)

  /** The answer of `auth.admin.generateLink`: its error (`Some` of the
      error's message, possibly empty, whenever there is an error object),
      user and link properties. */
  datatype LinkResult = LinkResult(
    error: Option<string>,
    user: Option<User>,
    emailOtp: Option<string>,
    actionLink: Option<string>)

  /** The answers of every remote call the handler may make. */
  datatype Oracle = Oracle(
    redirectUrl: Option<ParsedUrl>,
    link: LinkResult,
    uuid: string,
    upsertOk: bool,
    selectOk: bool,
    insertOk: bool,
    updateOk: bool)

  /** A row of `auth_install_codes`; times are epoch milliseconds. */
  datatype CodeRow = CodeRow(
    code: string,
    userId: string,
    email: string,
    metadata: map<string, string>,
    expiresAt: Option<int>,
    usedAt: Option<int>,
    maxUses: int)

  /** A row of the public `users` table. */
  datatype Profile = Profile(email: string, name: Option<string>, whId: Option<string>, inst: Option<string>)

  /** The two tables the function writes, keyed by `code` and by user id
      (the code column is taken to be unique). */
  datatype Db = Db(codes: map<string, CodeRow>, users: map<string, Profile>)

  datatype Body =
    | NoBody
    | Failure(error: string)
    | Created(code: string, email: string)
    | Exchanged(email: string, emailOtp: string)
    | Linked(email: string, userId: string, actionLink: string, created: bool)

  /** A response: status, body (`ok: true` is implied by the three success
      bodies), the `Access-Control-Allow-Origin` header and, for redirects,
      `Location`. */
  datatype Response = Response(status: int, body: Body, allowOrigin: string, location: Option<string>)

  /** The arguments `generateLink` was called with. */
  datatype LinkRequest = LinkRequest(email: string, redirectTo: Option<string>)

  /** A response, the new database contents and the magic-link request
      made on the way, if any. */
  datatype Outcome = Outcome(response: Response, db: Db, linkRequest: Option<LinkRequest>)

  function Reply(response: Response, db: Db): Outcome {
    Outcome(response, db, None)
  }

  /** `Access-Control-Allow-Origin`: the request's origin if allow-listed,
      otherwise `*`. */
  function AllowOrigin(origin: Option<string>): (r: string)
    ensures origin.Some? && origin.value in AllowedOrigins ==> r == origin.value
    ensures !(origin.Some? && origin.value in AllowedOrigins) ==> r == "*"
  {
    var o := origin.GetOr("");
    if o in AllowedOrigins then o else "*"
  }

  /** The `redirect_to` passed on to `generateLink`: kept only when it parses
      as a URL whose origin is allow-listed. */
  function RedirectTarget(raw: Option<string>, parsed: Option<ParsedUrl>): (r: Option<string>)
    ensures r.Some? <==> Given(raw) && parsed.Some? && parsed.value.origin in AllowedOrigins
    ensures r.Some? ==> r.value == parsed.value.href
  {
    if Given(raw) && parsed.Some? && parsed.value.origin in AllowedOrigins then Some(parsed.value.href) else None
  }

  function Json(status: int, body: Body, req: Request): Response {
    Response(status, body, AllowOrigin(req.origin), None)
  }

  /** The `users` upsert; its failure is only logged. */
  function Upsert(db: Db, ok: bool, user: User, email: string, p: Params): Db {
    if !ok then db
    else
      var name := if NonEmpty(p.name).Some? then NonEmpty(p.name) else user.metadataName;
      db.(users := db.users[user.id := Profile(email, name, NonEmpty(p.whId), NonEmpty(p.inst))])
  }

  /** Metadata kept with a new code: the non-empty ones among name, wh_id
      and inst (stored as `null` when there are none). */
  function Metadata(p: Params): map<string, string> {
    var m0: map<string, string> := map[];
    var m1 := if Given(p.name) then m0["name" := p.name.value] else m0;
    var m2 := if Given(p.whId) then m1["wh_id" := p.whId.value] else m1;
    if Given(p.inst) then m2["inst" := p.inst.value] else m2
  }

  /** The `create-install` flow, once authorisation has passed. */
  function HandleCreate(req: Request, o: Oracle, db: Db, rt: Option<string>, now: int): Outcome {
    var p := req.params;
    if !Given(p.email) then Reply(Json(400, Failure(EmailRequired), req), db)
    else
      var email := p.email.value;
      var asked := Some(LinkRequest(email, rt));
      if o.link.error.Some? || o.link.user.None? then
        Outcome(Json(500, Failure(OrElse(o.link.error, PrepareUserFailed)), req), db, asked)
      else
        var user := o.link.user.value;
        var db1 := Upsert(db, o.upsertOk, user, email, p);
        if !o.insertOk || o.uuid in db1.codes then
          Outcome(Json(500, Failure(InsertFailed), req), db1, asked)
        else
          var row := CodeRow(o.uuid, user.id, email, Metadata(p), Some(now + InstallTtlMs), None, 1);
          Outcome(Json(200, Created(o.uuid, email), req), db1.(codes := db1.codes[o.uuid := row]), asked)
  }

  /** A row the exchange may redeem: not yet used and not expired. */
  predicate Redeemable(row: CodeRow, now: int) {
    row.usedAt.None? && (row.expiresAt.None? || now < row.expiresAt.value)
  }

  /** The `exchange-install` flow: missing code, unknown code, used code and
      expired code are rejected in that order; otherwise an OTP is minted,
      the code marked used, and the OTP returned even if marking failed. */
  function HandleExchange(req: Request, o: Oracle, db: Db, rt: Option<string>, now: int): Outcome {
    var code := NonEmpty(req.params.code);
    if code.None? then Reply(Json(400, Failure(CodeRequired), req), db)
    else if !o.selectOk then Reply(Json(500, Failure(ValidateFailed), req), db)
    else if code.value !in db.codes then Reply(Json(400, Failure(InvalidCode), req), db)
    else
      var row := db.codes[code.value];
      if row.usedAt.Some? then Reply(Json(400, Failure(UsedCode), req), db)
      else if row.expiresAt.Some? && row.expiresAt.value <= now then Reply(Json(400, Failure(ExpiredCode), req), db)
      else
        var asked := Some(LinkRequest(row.email, rt));
        if o.link.error.Some? || o.link.user.None? || !Given(o.link.emailOtp) then
          Outcome(Json(500, Failure(OrElse(o.link.error, OtpFailed)), req), db, asked)
        else
          var db1 := if o.updateOk then db.(codes := db.codes[code.value := row.(usedAt := Some(now))]) else db;
          Outcome(Json(200, Exchanged(row.email, o.link.emailOtp.value), req), db1, asked)
  }

  /** The original magic-link flow: JSON when `mode=json`, otherwise a 302
      to the action link (`mode` defaults to `redirect`). */
  function HandleLegacy(req: Request, o: Oracle, db: Db, rt: Option<string>): Outcome {
    var p := req.params;
    if !Given(p.email) then Reply(Json(400, Failure(EmailRequired), req), db)
    else
      var asked := Some(LinkRequest(p.email.value, rt));
      if o.link.error.Some? || o.link.user.None? || !Given(o.link.actionLink) then
        Outcome(Json(500, Failure(OrElse(o.link.error, MagicLinkFailed)), req), db, asked)
      else
        var user := o.link.user.value;
        var link := o.link.actionLink.value;
        var db1 := Upsert(db, o.upsertOk, user, p.email.value, p);
        var mode := if Given(p.mode) then p.mode.value else "redirect";
        if mode == "json" then
          Outcome(Json(200, Linked(p.email.value, user.id, link, user.hasCreatedAt), req), db1, asked)
        else
          Outcome(Response(302, NoBody, AllowOrigin(req.origin), Some(link)), db1, asked)
  }

  /** Whether a `create-install` request may proceed: always from an
      allow-listed origin, otherwise only with the configured token. */
  predicate CreateAuthorised(req: Request, env: Env) {
    || (req.origin.Some? && req.origin.value in AllowedOrigins)
    || (|env.installToken| > 0 && req.installToken.GetOr("") == env.installToken)
  }

  /** The whole handler. */
  function Handle(req: Request, env: Env, o: Oracle, db: Db, now: int): (out: Outcome)
    ensures out.response.allowOrigin == AllowOrigin(req.origin)
    ensures req.httpMethod == "OPTIONS" ==> out == Reply(Response(200, NoBody, AllowOrigin(req.origin), None), db)
    ensures out.linkRequest.Some? ==> out.linkRequest.value.redirectTo == RedirectTarget(req.params.redirectTo, o.redirectUrl)
    ensures out.db.codes != db.codes ==> req.params.flow in {Some(CreateInstall), Some(ExchangeInstall)}
  {
    if req.httpMethod == "OPTIONS" then Reply(Response(200, NoBody, AllowOrigin(req.origin), None), db)
    else
      var rt := RedirectTarget(req.params.redirectTo, o.redirectUrl);
      if |env.supabaseUrl| == 0 || |env.serviceRole| == 0 then
        Reply(Json(500, Failure(MissingConfig), req), db)
      else
        var flow := req.params.flow;
        if flow == Some(CreateInstall) && !(req.origin.Some? && req.origin.value in AllowedOrigins)
           && !(|env.installToken| > 0 && req.installToken.GetOr("") == env.installToken) then
          Reply(Json(401, Failure(Unauthorized), req), db)
        else if flow == Some(CreateInstall) then HandleCreate(req, o, db, rt, now)
        else if flow == Some(ExchangeInstall) then HandleExchange(req, o, db, rt, now)
        else HandleLegacy(req, o, db, rt)
  }

  // ---------------------------------------------------------------------
  // Properties
  // ---------------------------------------------------------------------

  predicate Configured(env: Env) {
    |env.supabaseUrl| > 0 && |env.serviceRole| > 0
  }

  function ExchangeRequest(origin: Option<string>, code: string): Request {
    Request("GET", origin, None, Params(None, None, None, None, None, None, Some(ExchangeInstall), Some(code)))
  }

  /** create-install answers 401 exactly when the request is not
      authorised: an origin off the list without the configured, non-empty
      token. */
  lemma CreateNeedsAuthorisation(req: Request, env: Env, o: Oracle, db: Db, now: int)
    requires req.httpMethod != "OPTIONS" && Configured(env)
    requires req.params.flow == Some(CreateInstall)
    ensures Handle(req, env, o, db, now).response.status == 401 <==> !CreateAuthorised(req, env)
    ensures !CreateAuthorised(req, env) ==>
      Handle(req, env, o, db, now).db == db && Handle(req, env, o, db, now).linkRequest.None?
  {
  }

  /** Any error object from `generateLink` fails an authorised
      create-install with a 500, even one whose message is empty: no code
      is minted and no profile is written. */
  lemma CreateLinkErrorFails(req: Request, env: Env, o: Oracle, db: Db, now: int)
    requires req.httpMethod != "OPTIONS" && Configured(env) && CreateAuthorised(req, env)
    requires req.params.flow == Some(CreateInstall) && Given(req.params.email)
    requires o.link.error.Some?
    ensures
      var out := Handle(req, env, o, db, now);
      && out.response.status == 500
      && out.response.body == Failure(if |o.link.error.value| > 0 then o.link.error.value else PrepareUserFailed)
      && out.db == db
  {
  }

  /** An authorised create-install without e-mail is a 400 that writes
      nothing. */
  lemma CreateNeedsEmail(req: Request, env: Env, o: Oracle, db: Db, now: int)
    requires req.httpMethod != "OPTIONS" && Configured(env) && CreateAuthorised(req, env)
    requires req.params.flow == Some(CreateInstall) && !Given(req.params.email)
    ensures Handle(req, env, o, db, now) == Reply(Json(400, Failure(EmailRequired), req), db)
  {
  }

  /** A successful create-install returns the new code, which is stored
      unused, for that e-mail, with one use and a 30-minute lifetime. */
  lemma CreatedCode(req: Request, env: Env, o: Oracle, db: Db, now: int)
    requires req.httpMethod != "OPTIONS" && req.params.flow == Some(CreateInstall)
    requires Handle(req, env, o, db, now).response.status == 200
    ensures
      var out := Handle(req, env, o, db, now);
      && out.response.body == Created(o.uuid, req.params.email.value)
      && o.uuid !in db.codes && o.uuid in out.db.codes
      && out.db.codes[o.uuid].email == req.params.email.value
      && out.db.codes[o.uuid].expiresAt == Some(now + InstallTtlMs)
      && out.db.codes[o.uuid].usedAt == None
      && out.db.codes[o.uuid].maxUses == 1
      && out.db.codes - {o.uuid} == db.codes
  {
  }

  /** The exchange's rejections, in the order they are checked. A used code
      is reported as used even when it has also expired. */
  lemma ExchangeRejections(req: Request, env: Env, o: Oracle, db: Db, now: int)
    requires req.httpMethod != "OPTIONS" && Configured(env)
    requires req.params.flow == Some(ExchangeInstall)
    ensures
      var out := Handle(req, env, o, db, now);
      var code := req.params.code;
      && (!Given(code) ==> out.response == Json(400, Failure(CodeRequired), req))
      && (Given(code) && o.selectOk && code.value !in db.codes ==> out.response == Json(400, Failure(InvalidCode), req))
      && (Given(code) && o.selectOk && code.value in db.codes && db.codes[code.value].usedAt.Some? ==>
            out.response == Json(400, Failure(UsedCode), req))
      && (Given(code) && o.selectOk && code.value in db.codes && db.codes[code.value].usedAt.None?
          && db.codes[code.value].expiresAt.Some? && db.codes[code.value].expiresAt.value <= now ==>
            out.response == Json(400, Failure(ExpiredCode), req))
      && (out.response.status == 400 ==> out.db == db && out.linkRequest.None?)
  {
  }

  /** A successful exchange answers with the row's e-mail and a non-empty
      OTP, and only for a code that was redeemable; when the OTP is missing
      the answer is a 500 instead. */
  lemma ExchangeSuccess(req: Request, env: Env, o: Oracle, db: Db, now: int)
    requires req.httpMethod != "OPTIONS" && Configured(env)
    requires req.params.flow == Some(ExchangeInstall) && Given(req.params.code)
    ensures
      var out := Handle(req, env, o, db, now);
      var code := req.params.code.value;
      && (out.response.status == 200 <==>
            o.selectOk && code in db.codes && Redeemable(db.codes[code], now)
            && o.link.error.None? && o.link.user.Some? && Given(o.link.emailOtp))
      && (out.response.status == 200 ==>
            out.response.body == Exchanged(db.codes[code].email, o.link.emailOtp.value)
            && |o.link.emailOtp.value| > 0)
      && (o.selectOk && code in db.codes && Redeemable(db.codes[code], now) ==>
            out.linkRequest.Some? && out.linkRequest.value.email == db.codes[code].email)
      && (o.selectOk && code in db.codes && Redeemable(db.codes[code], now) && !Given(o.link.emailOtp) ==>
            out.response.status == 500)
  {
  }

  /** One use: after a successful exchange whose update went through, the
      same code is rejected as used by every later exchange. */
  lemma ExchangeOnce(origin: Option<string>, code: string, env: Env, o1: Oracle, o2: Oracle, db: Db, t1: int, t2: int)
    requires Configured(env) && o1.updateOk && o2.selectOk
    requires Handle(ExchangeRequest(origin, code), env, o1, db, t1).response.status == 200
    ensures
      var first := Handle(ExchangeRequest(origin, code), env, o1, db, t1);
      Handle(ExchangeRequest(origin, code), env, o2, first.db, t2).response.body == Failure(UsedCode)
  {
  }

  /** The caveat: when marking the code used fails, the table is unchanged
      and the same code can be exchanged again. */
  lemma ExchangeReplayAfterFailedUpdate(origin: Option<string>, code: string, env: Env, o1: Oracle, o2: Oracle, db: Db, t1: int, t2: int)
    requires Configured(env) && !o1.updateOk
    requires Handle(ExchangeRequest(origin, code), env, o1, db, t1).response.status == 200
    requires o2.selectOk && o2.link.error.None? && o2.link.user.Some? && Given(o2.link.emailOtp)
    requires code in db.codes && (db.codes[code].expiresAt.None? || t2 < db.codes[code].expiresAt.value)
    ensures
      var first := Handle(ExchangeRequest(origin, code), env, o1, db, t1);
      first.db == db && Handle(ExchangeRequest(origin, code), env, o2, first.db, t2).response.status == 200
  {
  }

  /** The legacy flow: with a link, `mode=json` answers 200 with the link
      and any other mode (the default included) redirects to it. */
  lemma LegacyModes(req: Request, env: Env, o: Oracle, db: Db, now: int)
    requires req.httpMethod != "OPTIONS" && Configured(env)
    requires req.params.flow != Some(CreateInstall) && req.params.flow != Some(ExchangeInstall)
    requires Given(req.params.email) && o.link.error.None? && o.link.user.Some? && Given(o.link.actionLink)
    ensures
      var r := Handle(req, env, o, db, now).response;
      && (req.params.mode == Some("json") ==>
            r.status == 200 && r.body.Linked? && r.body.actionLink == o.link.actionLink.value)
      && (req.params.mode != Some("json") ==>
            r.status == 302 && r.location == o.link.actionLink && r.body == NoBody)
  {
  }
}

=== FILE: js_value.dfy ===
/**
  The fragment of JavaScript's value domain the authentication code relies on:
  values read back from storage or from a JSON reply, their truthiness, and
  optional-chained property access. JSON text is produced and parsed by an
  oracle codec, because the source delegates both to `JSON.stringify` and
  `JSON.parse`.
*/
module JsValue {
  import opened Base

  /** A JavaScript value as it can appear in a stored record. Numbers are
      modelled as integers (no NaN, no fractions). */
  datatype Value =
    | Undefined
    | Null
    | Bool(b: bool)
    | Num(n: int)
    | Str(s: string)
    | Arr(items: seq<Value>)
    | Obj(fields: map<string, Value>)

  /** JavaScript truthiness: what `if (x)` and `!x` test. */
  predicate Truthy(v: Value) {
    match v
    case Undefined => false
    case Null => false
    case Bool(b) => b
    case Num(n) => n != 0
    case Str(s) => |s| > 0
    case Arr(_) => true
    case Obj(_) => true
  }

  /** `null` or `undefined`: the receivers on which a plain `v.name`
      throws a `TypeError`. */
  predicate Nullish(v: Value) {
    v == Null || v == Undefined
  }

  /** `v?.name`: a missing field, or any receiver that is not an object,
      yields `undefined`. */
  function Member(v: Value, name: string): (r: Value)
    ensures !v.Obj? ==> r == Undefined
    ensures v.Obj? && name in v.fields ==> r == v.fields[name]
  {
    match v
    case Obj(fields) => if name in fields then fields[name] else Undefined
    case _ => Undefined
  }

  /** The string `s`, or `null` when absent: how the source stores `x ?? null`. */
  function StrOrNull(s: Option<string>): Value {
    match s
    case Some(t) => Str(t)
    case None => Null
  }

  /** `JSON.stringify` and `JSON.parse`, supplied from outside the model;
      `parse` returns `None` where `JSON.parse` throws. */
  datatype Codec = Codec(stringify: Value -> string, parse: string -> Option<Value>)

  /** The codec writes `v` as non-empty text that parses back to `v`. This is
      what `JSON.stringify` followed by `JSON.parse` does for the records the
      source writes (objects whose fields hold JSON data). */
  predicate Faithful(codec: Codec, v: Value) {
    && |codec.stringify(v)| > 0
    && codec.parse(codec.stringify(v)) == Some(v)
  }
}

=== FILE: persistent_storage.dfy ===
/**
  The redundant key-value store of src/lib/persistent-auth.ts
  (`PersistentStorage`). A value is wrapped as `{value, timestamp, version}`,
  serialised once and written to four browser backends: IndexedDB (only while
  the database is open), the Cache API, `localStorage` and `sessionStorage`.
  Reads probe the backends in a platform-dependent order, take the first
  record that parses to something truthy, and write it back everywhere.

  Each backend is a map from key to stored text together with two flags:
  whether its writes currently succeed and whether its reads do. A backend
  whose call would throw is one whose flag is off; the source catches and
  ignores every such throw.
*/
module PersistentStorage {
  import opened Base
  import opened JsValue

  const CacheName: string := "sp-auth-cache-v1"
  const FormatVersion: string := "1.0"

  /** The fixed keys (`PersistentStorage.KEYS`), in declaration order. */
  const AuthCodeKey: string := "sp_auth_code"
  const SessionKey: string := "sp_session"
  const UserDataKey: string := "sp_user_data"
  const LastSyncKey: string := "sp_last_sync"
  const Keys: seq<string> := [AuthCodeKey, SessionKey, UserDataKey, LastSyncKey]

  datatype Kind = IndexedDb | CacheApi | Local | SessionStore

  /** Where backend `k` stands in the probe order. */
  function Position(ios: bool, k: Kind): (i: nat)
    ensures i < |ReadOrder(ios)| && ReadOrder(ios)[i] == k
  {
    match k
    case IndexedDb => if ios then 0 else 1
    case CacheApi => if ios then 1 else 2
    case Local => if ios then 2 else 0
    case SessionStore => 3
  }

  /** Write order of `saveEverywhere`. */
  const WriteOrder: seq<Kind> := [IndexedDb, CacheApi, Local, SessionStore]

  /** Probe order of `getFromAnywhere`: iOS prefers IndexedDB, every other
      platform `localStorage`. */
  function ReadOrder(ios: bool): seq<Kind> {
    if ios then [IndexedDb, CacheApi, Local, SessionStore]
    else [Local, IndexedDb, CacheApi, SessionStore]
  }

  /** One backend: stored text per key (for the Cache API the key is the
      request path `/${key}`), and whether writes and reads go through. */
  datatype Backend = Backend(slots: map<string, string>, writable: bool, readable: bool)

  /** The four backends, and whether `init` managed to open the database. */
  datatype Storage = Storage(dbOpen: bool, idb: Backend, cache: Backend, local: Backend, session: Backend)

  function Of(st: Storage, k: Kind): Backend {
    match k
    case IndexedDb => st.idb
    case CacheApi => st.cache
    case Local => st.local
    case SessionStore => st.session
  }

  function With(st: Storage, k: Kind, b: Backend): (r: Storage)
    ensures Of(r, k) == b && r.dbOpen == st.dbOpen
    ensures forall j :: j != k ==> Of(r, j) == Of(st, j)
  {
    match k
    case IndexedDb => st.(idb := b)
    case CacheApi => st.(cache := b)
    case Local => st.(local := b)
    case SessionStore => st.(session := b)
  }

  /** A write to backend `k` takes effect (IndexedDB is skipped while `db`
      is null). */
  predicate Accepts(st: Storage, k: Kind) {
    Of(st, k).writable && (k != IndexedDb || st.dbOpen)
  }

  /** A read from backend `k` returns what it holds. */
  predicate Serves(st: Storage, k: Kind) {
    Of(st, k).readable && (k != IndexedDb || st.dbOpen)
  }

  /** The stored wrapper `{value, timestamp, version: '1.0'}`. */
  function Wrap(value: Value, now: int): (w: Value)
    ensures Truthy(w) && Member(w, "value") == value
  {
    Obj(map["value" := value, "timestamp" := Num(now), "version" := Str(FormatVersion)])
  }

  /** Text `saveEverywhere(key, value)` writes at time `now`. */
  function Serialized(codec: Codec, value: Value, now: int): string {
    codec.stringify(Wrap(value, now))
  }

  /** One backend's `setItem`/`put`, swallowed when it throws. */
  function Put(st: Storage, k: Kind, key: string, text: string): (r: Storage)
    ensures r.dbOpen == st.dbOpen
    ensures forall j :: Of(r, j).writable == Of(st, j).writable && Of(r, j).readable == Of(st, j).readable
    ensures forall j :: j != k ==> Of(r, j) == Of(st, j)
  {
    if Accepts(st, k) then With(st, k, Of(st, k).(slots := Of(st, k).slots[key := text])) else st
  }

  /** `saveEverywhere(key, value)`: each backend is written independently; a
      backend that refuses the write leaves the others unaffected. */
  function SaveEverywhere(st: Storage, codec: Codec, key: string, value: Value, now: int): (r: Storage)
    ensures r.dbOpen == st.dbOpen
    ensures forall k :: Of(r, k).writable == Of(st, k).writable && Of(r, k).readable == Of(st, k).readable
    ensures forall k :: Accepts(st, k) ==> Of(r, k).slots == Of(st, k).slots[key := Serialized(codec, value, now)]
    ensures forall k :: !Accepts(st, k) ==> Of(r, k).slots == Of(st, k).slots
  {
    var text := Serialized(codec, value, now);
    var s1 := Put(st, IndexedDb, key, text);
    var s2 := Put(s1, CacheApi, key, text);
    var s3 := Put(s2, Local, key, text);
    Put(s3, SessionStore, key, text)
  }

  /** What probing backend `k` for `key` parses to: nothing when the
      backend throws, misses, holds empty text (`if (stored)`, not checked
      for the Cache API, whose response object is always truthy) or holds
      text that does not parse. */
  function Parsed(st: Storage, codec: Codec, k: Kind, key: string): Option<Value> {
    if !Serves(st, k) || key !in Of(st, k).slots then None
    else
      var text := Of(st, k).slots[key];
      if k != CacheApi && |text| == 0 then None else codec.parse(text)
  }

  /** Backend `k` ends the probe: it parses to something truthy. */
  predicate Yields(st: Storage, codec: Codec, k: Kind, key: string) {
    Parsed(st, codec, k, key).Some? && Truthy(Parsed(st, codec, k, key).value)
  }

  /** The probe loop of `getFromAnywhere` as written: `data` keeps the last
      parse result and the loop stops once it is truthy. */
  function ProbeLoop(st: Storage, codec: Codec, key: string, order: seq<Kind>, data: Value): Value
    decreases |order|
  {
    if |order| == 0 || Truthy(data) then data
    else
      var parsed := Parsed(st, codec, order[0], key);
      ProbeLoop(st, codec, key, order[1..], if parsed.Some? then parsed.value else data)
  }

  /** Reference definition: the record of the first backend in `order` that
      yields one. */
  function FirstRecord(st: Storage, codec: Codec, key: string, order: seq<Kind>): (r: Option<Value>)
    ensures r.Some? ==> Truthy(r.value)
    ensures r.None? <==> forall i :: 0 <= i < |order| ==> !Yields(st, codec, order[i], key)
    decreases |order|
  {
    if |order| == 0 then None
    else if Yields(st, codec, order[0], key) then Parsed(st, codec, order[0], key)
    else FirstRecord(st, codec, key, order[1..])
  }

  /** The loop as written finds exactly the first record: falsy parses
      that it keeps in `data` along the way never leak out. */
  lemma {:induction false} ProbeLoopFindsFirst(st: Storage, codec: Codec, key: string, order: seq<Kind>, data: Value)
    requires !Truthy(data)
    ensures FirstRecord(st, codec, key, order).Some? ==>
      ProbeLoop(st, codec, key, order, data) == FirstRecord(st, codec, key, order).value
    ensures FirstRecord(st, codec, key, order).None? ==>
      !Truthy(ProbeLoop(st, codec, key, order, data))
    decreases |order|
  {
    if |order| > 0 {
      var parsed := Parsed(st, codec, order[0], key);
      var data' := if parsed.Some? then parsed.value else data;
      if !Yields(st, codec, order[0], key) {
        ProbeLoopFindsFirst(st, codec, key, order[1..], data');
      } else {
        assert ProbeLoop(st, codec, key, order[1..], data') == data';
      }
    }
  }

  /** Outcome of a read: the storage after write-back, and the value. */
  datatype Read = Read(store: Storage, value: Value)

  /** `getFromAnywhere(key)`: on a hit, `data.value` is written back to every
      backend and returned; on a miss, `null` is returned and nothing is
      written. */
  function GetFromAnywhere(st: Storage, codec: Codec, key: string, ios: bool, now: int): (r: Read)
    ensures FirstRecord(st, codec, key, ReadOrder(ios)).None? ==> r == Read(st, Null)
    ensures FirstRecord(st, codec, key, ReadOrder(ios)).Some? ==>
      && r.value == Member(FirstRecord(st, codec, key, ReadOrder(ios)).value, "value")
      && r.store == SaveEverywhere(st, codec, key, r.value, now)
  {
    var data := ProbeLoop(st, codec, key, ReadOrder(ios), Null);
    ProbeLoopFindsFirst(st, codec, key, ReadOrder(ios), Null);
    if Truthy(data) then
      var value := Member(data, "value");
      Read(SaveEverywhere(st, codec, key, value, now), value)
    else
      Read(st, Null)
  }

  // ---------------------------------------------------------------------
  // Sync, clear, init and the typed accessors
  // ---------------------------------------------------------------------

  /** One key of `syncStorages`: read it (which writes a hit back) and save
      it again when the recovered value is truthy. */
  function SyncKey(st: Storage, codec: Codec, key: string, ios: bool, now: int): Storage {
    var r := GetFromAnywhere(st, codec, key, ios, now);
    if Truthy(r.value) then SaveEverywhere(r.store, codec, key, r.value, now) else r.store
  }

  function SyncKeys(st: Storage, codec: Codec, keys: seq<string>, ios: bool, now: int): Storage
    decreases |keys|
  {
    if |keys| == 0 then st else SyncKeys(SyncKey(st, codec, keys[0], ios, now), codec, keys[1..], ios, now)
  }

  /** `syncStorages()`: every fixed key in turn, then the sync time under
      `sp_last_sync`. One `now` stands for every `Date.now()` of the pass. */
  function SyncStorages(st: Storage, codec: Codec, ios: bool, now: int): (r: Storage)
    ensures forall k :: Accepts(st, k) ==>
      LastSyncKey in Of(r, k).slots && Of(r, k).slots[LastSyncKey] == Serialized(codec, Num(now), now)
  {
    var synced := SyncKeys(st, codec, Keys, ios, now);
    SyncKeysKeepFlags(st, codec, Keys, ios, now);
    SaveEverywhere(synced, codec, LastSyncKey, Num(now), now)
  }

  /** `init()`: open the database; only if that succeeds, synchronise. */
  function Init(st: Storage, codec: Codec, dbOpened: bool, ios: bool, now: int): (r: Storage)
    ensures !dbOpened ==> r == st
    ensures dbOpened ==> r.dbOpen
    ensures forall k :: Of(r, k).writable == Of(st, k).writable && Of(r, k).readable == Of(st, k).readable
    ensures dbOpened ==> forall k :: Accepts(st.(dbOpen := true), k) ==>
      LastSyncKey in Of(r, k).slots && Of(r, k).slots[LastSyncKey] == Serialized(codec, Num(now), now)
  {
    if dbOpened then
      var s := st.(dbOpen := true);
      SyncKeysKeepFlags(s, codec, Keys, ios, now);
      SyncStorages(s, codec, ios, now)
    else st
  }

  /** `clearAll()`: the four keys go from IndexedDB, `localStorage` and
      `sessionStorage`, and the whole `sp-auth-cache-v1` cache is deleted.
      Each backend is attempted independently. */
  function ClearAll(st: Storage): (r: Storage)
    ensures r.dbOpen == st.dbOpen
    ensures forall k :: Of(r, k).writable == Of(st, k).writable && Of(r, k).readable == Of(st, k).readable
    ensures forall k :: !Accepts(st, k) ==> Of(r, k).slots == Of(st, k).slots
    ensures Accepts(st, CacheApi) ==> r.cache.slots == map[]
    ensures forall k :: Accepts(st, k) && k != CacheApi ==> Of(r, k).slots == Of(st, k).slots - KeySet
  {
    var s1 := Remove(st, IndexedDb, KeySet);
    var s2 := Remove(s1, CacheApi, s1.cache.slots.Keys);
    var s3 := Remove(s2, Local, KeySet);
    var r := Remove(s3, SessionStore, KeySet);
    assert Accepts(st, CacheApi) ==> r.cache.slots == s1.cache.slots - s1.cache.slots.Keys;
    r
  }

  const KeySet: set<string> := set key | key in Keys

  /** One backend's deletions, swallowed when they throw. */
  function Remove(st: Storage, k: Kind, keys: set<string>): (r: Storage)
    ensures r.dbOpen == st.dbOpen
    ensures forall j :: Of(r, j).writable == Of(st, j).writable && Of(r, j).readable == Of(st, j).readable
    ensures forall j :: j != k ==> Of(r, j) == Of(st, j)
    ensures Accepts(st, k) ==> Of(r, k).slots == Of(st, k).slots - keys
    ensures !Accepts(st, k) ==> Of(r, k) == Of(st, k)
  {
    if Accepts(st, k) then With(st, k, Of(st, k).(slots := Of(st, k).slots - keys)) else st
  }

  function SaveAuthCode(st: Storage, codec: Codec, code: string, now: int): (r: Storage)
    ensures OnlyKeyChanged(st, r, AuthCodeKey)
    ensures forall k :: Accepts(st, k) ==> AuthCodeKey in Of(r, k).slots && Of(r, k).slots[AuthCodeKey] == Serialized(codec, Str(code), now)
  {
    SaveTouchesOneKey(st, codec, AuthCodeKey, Str(code), now);
    SaveEverywhere(st, codec, AuthCodeKey, Str(code), now)
  }

  function GetAuthCode(st: Storage, codec: Codec, ios: bool, now: int): (r: Read)
    ensures OnlyKeyChanged(st, r.store, AuthCodeKey)
    ensures FirstRecord(st, codec, AuthCodeKey, ReadOrder(ios)).None? ==> r == Read(st, Null)
    ensures FirstRecord(st, codec, AuthCodeKey, ReadOrder(ios)).Some? ==>
      r.value == Member(FirstRecord(st, codec, AuthCodeKey, ReadOrder(ios)).value, "value")
  {
    ReadTouchesOneKey(st, codec, AuthCodeKey, ios, now);
    GetFromAnywhere(st, codec, AuthCodeKey, ios, now)
  }

  function SaveSession(st: Storage, codec: Codec, session: Value, now: int): (r: Storage)
    ensures OnlyKeyChanged(st, r, SessionKey)
    ensures forall k :: Accepts(st, k) ==> SessionKey in Of(r, k).slots && Of(r, k).slots[SessionKey] == Serialized(codec, session, now)
  {
    SaveTouchesOneKey(st, codec, SessionKey, session, now);
    SaveEverywhere(st, codec, SessionKey, session, now)
  }

  function GetSession(st: Storage, codec: Codec, ios: bool, now: int): (r: Read)
    ensures OnlyKeyChanged(st, r.store, SessionKey)
    ensures FirstRecord(st, codec, SessionKey, ReadOrder(ios)).None? ==> r == Read(st, Null)
    ensures FirstRecord(st, codec, SessionKey, ReadOrder(ios)).Some? ==>
      r.value == Member(FirstRecord(st, codec, SessionKey, ReadOrder(ios)).value, "value")
  {
    ReadTouchesOneKey(st, codec, SessionKey, ios, now);
    GetFromAnywhere(st, codec, SessionKey, ios, now)
  }

  function SaveUserData(st: Storage, codec: Codec, user: Value, now: int): (r: Storage)
    ensures OnlyKeyChanged(st, r, UserDataKey)
    ensures forall k :: Accepts(st, k) ==> UserDataKey in Of(r, k).slots && Of(r, k).slots[UserDataKey] == Serialized(codec, user, now)
  {
    SaveTouchesOneKey(st, codec, UserDataKey, user, now);
    SaveEverywhere(st, codec, UserDataKey, user, now)
  }

  function GetUserData(st: Storage, codec: Codec, ios: bool, now: int): (r: Read)
    ensures OnlyKeyChanged(st, r.store, UserDataKey)
    ensures FirstRecord(st, codec, UserDataKey, ReadOrder(ios)).None? ==> r == Read(st, Null)
    ensures FirstRecord(st, codec, UserDataKey, ReadOrder(ios)).Some? ==>
      r.value == Member(FirstRecord(st, codec, UserDataKey, ReadOrder(ios)).value, "value")
  {
    ReadTouchesOneKey(st, codec, UserDataKey, ios, now);
    GetFromAnywhere(st, codec, UserDataKey, ios, now)
  }

  // ---------------------------------------------------------------------
  // Properties
  // ---------------------------------------------------------------------

  /** Only the slots of `key` may differ; flags are the same. */
  predicate OnlyKeyChanged(st: Storage, r: Storage, key: string) {
    && r.dbOpen == st.dbOpen
    && (forall k :: Of(r, k).writable == Of(st, k).writable && Of(r, k).readable == Of(st, k).readable)
    && (forall k :: Of(r, k).slots - {key} == Of(st, k).slots - {key})
  }

  lemma SaveTouchesOneKey(st: Storage, codec: Codec, key: string, value: Value, now: int)
    ensures OnlyKeyChanged(st, SaveEverywhere(st, codec, key, value, now), key)
  {
  }

  lemma ReadTouchesOneKey(st: Storage, codec: Codec, key: string, ios: bool, now: int)
    ensures OnlyKeyChanged(st, GetFromAnywhere(st, codec, key, ios, now).store, key)
  {
    SaveTouchesOneKey(st, codec, key, GetFromAnywhere(st, codec, key, ios, now).value, now);
  }

  lemma {:induction false} SyncKeysKeepFlags(st: Storage, codec: Codec, keys: seq<string>, ios: bool, now: int)
    ensures SyncKeys(st, codec, keys, ios, now).dbOpen == st.dbOpen
    ensures forall k :: Of(SyncKeys(st, codec, keys, ios, now), k).writable == Of(st, k).writable
    ensures forall k :: Of(SyncKeys(st, codec, keys, ios, now), k).readable == Of(st, k).readable
    decreases |keys|
  {
    if |keys| > 0 {
      SyncKeysKeepFlags(SyncKey(st, codec, keys[0], ios, now), codec, keys[1..], ios, now);
    }
  }

  /** Priority: the value returned is that of backend `order[j]` exactly
      when it yields a record and every backend probed before it yields
      none, whether because it threw, missed or held unparseable text. */
  lemma ReadPriority(st: Storage, codec: Codec, key: string, ios: bool, now: int, j: nat)
    requires j < |ReadOrder(ios)| && Yields(st, codec, ReadOrder(ios)[j], key)
    requires forall i :: 0 <= i < j ==> !Yields(st, codec, ReadOrder(ios)[i], key)
    ensures GetFromAnywhere(st, codec, key, ios, now).value ==
      Member(Parsed(st, codec, ReadOrder(ios)[j], key).value, "value")
  {
    FirstAt(st, codec, key, ReadOrder(ios), j);
  }

  lemma {:induction false} FirstAt(st: Storage, codec: Codec, key: string, order: seq<Kind>, j: nat)
    requires j < |order| && Yields(st, codec, order[j], key)
    requires forall i :: 0 <= i < j ==> !Yields(st, codec, order[i], key)
    ensures FirstRecord(st, codec, key, order) == Parsed(st, codec, order[j], key)
    decreases j
  {
    if j > 0 {
      FirstAt(st, codec, key, order[1..], j - 1);
    }
  }

  /** A miss happens exactly when no backend yields a record; then nothing
      is written and `null` comes back. */
  lemma ReadMiss(st: Storage, codec: Codec, key: string, ios: bool, now: int)
    ensures (forall k :: !Yields(st, codec, k, key)) <==>
      FirstRecord(st, codec, key, ReadOrder(ios)).None?
    ensures (forall k :: !Yields(st, codec, k, key)) ==>
      GetFromAnywhere(st, codec, key, ios, now) == Read(st, Null)
  {
    var order := ReadOrder(ios);
    if FirstRecord(st, codec, key, order).None? {
      forall k ensures !Yields(st, codec, k, key) {
        var i := Position(ios, k);
      }
    }
  }

  /** Round trip: after `saveEverywhere(key, v)`, `getFromAnywhere(key)`
      returns `v` as long as some backend both took the write and reads it
      back, and no backend that refused the write still answers reads. */
  lemma SaveThenGet(st: Storage, codec: Codec, key: string, v: Value, t: int, ios: bool, now: int)
    requires Faithful(codec, Wrap(v, t))
    requires exists k :: Accepts(st, k) && Serves(st, k)
    requires forall k :: Serves(st, k) ==> Accepts(st, k)
    ensures GetFromAnywhere(SaveEverywhere(st, codec, key, v, t), codec, key, ios, now).value == v
  {
    var saved := SaveEverywhere(st, codec, key, v, t);
    var order := ReadOrder(ios);
    var k :| Accepts(st, k) && Serves(st, k);
    var j := Position(ios, k);
    SavedReadsBack(st, codec, key, v, t, k);
    var first :| 0 <= first <= j && Yields(saved, codec, order[first], key)
      && forall i :: 0 <= i < first ==> !Yields(saved, codec, order[i], key) by {
      FirstYieldExists(saved, codec, key, order, j);
    }
    YieldingServes(saved, codec, order[first], key);
    SavedReadsBack(st, codec, key, v, t, order[first]);
    ReadPriority(saved, codec, key, ios, now, first);
  }

  lemma SavedReadsBack(st: Storage, codec: Codec, key: string, v: Value, t: int, k: Kind)
    requires Faithful(codec, Wrap(v, t))
    requires Accepts(st, k) && Serves(st, k)
    ensures Parsed(SaveEverywhere(st, codec, key, v, t), codec, k, key) == Some(Wrap(v, t))
    ensures Yields(SaveEverywhere(st, codec, key, v, t), codec, k, key)
  {
  }

  lemma YieldingServes(st: Storage, codec: Codec, k: Kind, key: string)
    requires Yields(st, codec, k, key)
    ensures Serves(st, k) && key in Of(st, k).slots
  {
  }

  lemma FirstYieldExists(st: Storage, codec: Codec, key: string, order: seq<Kind>, j: nat)
    requires j < |order| && Yields(st, codec, order[j], key)
    ensures exists first :: (0 <= first <= j && Yields(st, codec, order[first], key)
      && forall i :: 0 <= i < first ==> !Yields(st, codec, order[i], key))
    decreases j
  {
    if !(forall i :: 0 <= i < j ==> !Yields(st, codec, order[i], key)) {
      var i :| 0 <= i < j && Yields(st, codec, order[i], key);
      FirstYieldExists(st, codec, key, order, i);
    }
  }

  /** The caveat behind the round trip's last condition: a `localStorage`
      that refuses writes (quota exceeded) but still serves an older record
      shadows the fresh write on every platform but iOS. */
  lemma StaleBackendShadowsWrite(codec: Codec, key: string, stale: Value, v: Value, t0: int, t: int)
    requires Faithful(codec, Wrap(stale, t0)) && Faithful(codec, Wrap(v, t))
    requires stale != v
    ensures
      var empty := Backend(map[], true, true);
      var st := Storage(true, empty, empty, Backend(map[key := Serialized(codec, stale, t0)], false, true), empty);
      GetFromAnywhere(SaveEverywhere(st, codec, key, v, t), codec, key, false, t).value == stale
  {
    var empty := Backend(map[], true, true);
    var st := Storage(true, empty, empty, Backend(map[key := Serialized(codec, stale, t0)], false, true), empty);
    var saved := SaveEverywhere(st, codec, key, v, t);
    assert Parsed(saved, codec, Local, key) == Some(Wrap(stale, t0));
    ReadPriority(saved, codec, key, false, t, 0);
  }

  /** Writing the same value twice at the same time changes nothing more. */
  lemma SaveIdempotent(st: Storage, codec: Codec, key: string, v: Value, now: int)
    ensures SaveEverywhere(SaveEverywhere(st, codec, key, v, now), codec, key, v, now)
      == SaveEverywhere(st, codec, key, v, now)
  {
    var once := SaveEverywhere(st, codec, key, v, now);
    var twice := SaveEverywhere(once, codec, key, v, now);
    forall k ensures Of(twice, k) == Of(once, k) {
      assert Accepts(once, k) == Accepts(st, k);
    }
    assert twice.idb == once.idb && twice.cache == once.cache;
    assert twice.local == once.local && twice.session == once.session;
  }

  /** In `syncStorages` the explicit re-save of a truthy value rewrites the
      very text the read already wrote back: each key's step has the same
      effect as the read alone. */
  lemma SyncKeyIsRead(st: Storage, codec: Codec, key: string, ios: bool, now: int)
    ensures SyncKey(st, codec, key, ios, now) == GetFromAnywhere(st, codec, key, ios, now).store
  {
    var r := GetFromAnywhere(st, codec, key, ios, now);
    if Truthy(r.value) {
      assert FirstRecord(st, codec, key, ReadOrder(ios)).Some?;
      SaveIdempotent(st, codec, key, r.value, now);
    }
  }

  /** `clearAll` removes exactly the fixed keys from IndexedDB,
      `localStorage` and `sessionStorage`: every other key keeps its text. */
  lemma ClearAllKeepsOtherKeys(st: Storage, k: Kind, key: string)
    requires Accepts(st, k) && k != CacheApi
    ensures key in Of(ClearAll(st), k).slots <==> key in Of(st, k).slots && key !in Keys
    ensures key in Of(ClearAll(st), k).slots ==> Of(ClearAll(st), k).slots[key] == Of(st, k).slots[key]
  {
  }

  /** After a fully successful `clearAll`, none of the fixed keys can be
      read back from any backend. */
  lemma ClearThenGet(st: Storage, codec: Codec, key: string, ios: bool, now: int)
    requires key in Keys
    requires forall k :: Serves(st, k) ==> Accepts(st, k)
    ensures GetFromAnywhere(ClearAll(st), codec, key, ios, now) == Read(ClearAll(st), Null)
  {
    var cleared := ClearAll(st);
    forall k ensures !Yields(cleared, codec, k, key) {
      if Serves(cleared, k) {
        assert key !in Of(cleared, k).slots;
      }
    }
    ReadMiss(cleared, codec, key, ios, now);
  }
}

=== FILE: service_worker.dfy ===
/**
  The application's service worker (public/sw.js): it precaches the app
  shell on install, deletes every cache but its own and the auth caches on
  activation, and answers GET requests network-first for navigations (with
  an offline fallback) and cache-first for images, fonts, scripts and
  styles.

  `CacheStorage` is the sequence of named caches in creation order, the
  order `caches.match` searches them. A URL is an absolute string; the
  worker's origin is a parameter. The network is an oracle from URL to a
  response, `None` for a network error. The cache writes the fetch
  handlers start without awaiting are taken to complete.
*/
module ServiceWorker {
  import opened Base
  import opened Text
  import PersistentStorage

  const CacheName: string := "sp-cache-v3"
  const OfflinePath: string := "/offline.html"
  const EssentialFiles: seq<string> := ["/", "/index.html", OfflinePath, "/icons/icon-512.png", "/manifest.webmanifest"]

  /** The caches activation keeps: the worker's own and the ones the auth
      layer writes to. */
  const KeptCaches: set<string> := {CacheName, "auth-backup-v1", "install-bridge", "sp-auth-cache-v1"}

  datatype Response = Response(status: int, body: string)

  /** `response.ok`. */
  predicate Ok(r: Response) {
    200 <= r.status <= 299
  }

  /** What `cache.put` and `cache.addAll` accept: an ok response that is
      not a partial one (206), which the Cache API rejects. */
  predicate Storable(r: Response) {
    Ok(r) && r.status != 206
  }

  datatype NamedCache = NamedCache(name: string, entries: map<string, Response>)

  type Network = string -> Option<Response>

  function Resolve(origin: string, path: string): string {
    origin + path
  }

  function Names(cs: seq<NamedCache>): (names: seq<string>)
    ensures |names| == |cs|
    ensures forall i :: 0 <= i < |cs| ==> names[i] == cs[i].name
  {
    if |cs| == 0 then [] else [cs[0].name] + Names(cs[1..])
  }

  /** `caches.open(name)`: the storage with that cache present (created
      last if it was missing) and its index. */
  function Open(cs: seq<NamedCache>, name: string): (r: (seq<NamedCache>, nat))
    ensures r.1 < |r.0| && r.0[r.1].name == name
    ensures name in Names(cs) ==> r.0 == cs && forall i :: 0 <= i < r.1 ==> cs[i].name != name
    ensures name !in Names(cs) ==> r.0 == cs + [NamedCache(name, map[])] && r.1 == |cs|
  {
    if name in Names(cs) then (cs, FindCache(cs, name)) else (cs + [NamedCache(name, map[])], |cs|)
  }

  function FindCache(cs: seq<NamedCache>, name: string): (i: nat)
    requires name in Names(cs)
    ensures i < |cs| && cs[i].name == name
    ensures forall j :: 0 <= j < i ==> cs[j].name != name
    decreases |cs|
  {
    if cs[0].name == name then 0 else 1 + FindCache(cs[1..], name)
  }

  /** `cache.put(url, response)` into the named cache, present first. */
  function Put(cs: seq<NamedCache>, name: string, url: string, resp: Response): (r: seq<NamedCache>)
    ensures Names(r) == Names(Open(cs, name).0)
    ensures r[Open(cs, name).1].entries == Open(cs, name).0[Open(cs, name).1].entries[url := resp]
    ensures forall i :: 0 <= i < |r| && i != Open(cs, name).1 ==> r[i] == Open(cs, name).0[i]
  {
    var o := Open(cs, name);
    var present := o.0;
    var i := o.1;
    var r := present[i := present[i].(entries := present[i].entries[url := resp])];
    assert forall j :: 0 <= j < |r| ==> r[j].name == present[j].name;
    r
  }

  /** `caches.match(url)`: the entry of the first cache, in creation order,
      that holds the URL. */
  function Match(cs: seq<NamedCache>, url: string): (r: Option<Response>)
    ensures r.None? <==> forall i :: 0 <= i < |cs| ==> url !in cs[i].entries
    decreases |cs|
  {
    if |cs| == 0 then None
    else if url in cs[0].entries then Some(cs[0].entries[url])
    else Match(cs[1..], url)
  }

  // ---------------------------------------------------------------------
  // install and activate
  // ---------------------------------------------------------------------

  /** Whether every URL fetches with a storable response, which is what
      `cache.addAll` needs to store anything. */
  predicate AllFetched(net: Network, urls: seq<string>) {
    forall i :: 0 <= i < |urls| ==> net(urls[i]).Some? && Storable(net(urls[i]).value)
  }

  function PutAll(entries: map<string, Response>, net: Network, urls: seq<string>): (r: map<string, Response>)
    requires AllFetched(net, urls)
    ensures forall i :: 0 <= i < |urls| ==> urls[i] in r && r[urls[i]] == net(urls[i]).value
    ensures forall u :: u in r && u !in urls ==> u in entries && r[u] == entries[u]
    ensures forall u :: u in entries ==> u in r
    decreases |urls|
  {
    if |urls| == 0 then entries
    else
      var last := |urls| - 1;
      assert AllFetched(net, urls[..last]);
      PutAll(entries, net, urls[..last])[urls[last] := net(urls[last]).value]
  }

  function EssentialUrls(origin: string): (urls: seq<string>)
    ensures |urls| == |EssentialFiles|
    ensures forall i :: 0 <= i < |urls| ==> urls[i] == Resolve(origin, EssentialFiles[i])
  {
    seq(|EssentialFiles|, i requires 0 <= i < |EssentialFiles| => Resolve(origin, EssentialFiles[i]))
  }

  datatype Installed = Installed(caches: seq<NamedCache>, done: bool)

  /** The `install` event: open `sp-cache-v3`, then `addAll` the app
      shell, which stores all of it or, when any fetch fails or is not ok,
      none of it (and the install fails). */
  function Install(cs: seq<NamedCache>, origin: string, net: Network): (r: Installed)
    ensures CacheName in Names(r.caches)
    ensures r.done <==> AllFetched(net, EssentialUrls(origin))
    ensures !r.done ==> r.caches == Open(cs, CacheName).0
    ensures r.done ==> Names(r.caches) == Names(Open(cs, CacheName).0)
    ensures r.done ==>
      var o := Open(cs, CacheName);
      forall j :: 0 <= j < |r.caches| && j != o.1 ==> r.caches[j] == o.0[j]
    ensures r.done ==>
      var o := Open(cs, CacheName);
      forall u :: u in o.0[o.1].entries ==>
        && u in r.caches[o.1].entries
        && (u !in EssentialUrls(origin) ==> r.caches[o.1].entries[u] == o.0[o.1].entries[u])
  {
    var o := Open(cs, CacheName);
    var present := o.0;
    var i := o.1;
    var urls := EssentialUrls(origin);
    if AllFetched(net, urls) then
      var r := present[i := present[i].(entries := PutAll(present[i].entries, net, urls))];
      assert Names(r) == Names(present) by {
        assert forall j :: 0 <= j < |r| ==> r[j].name == present[j].name;
      }
      Installed(r, true)
    else Installed(present, false)
  }

  /** The `activate` event: delete every cache whose name is not kept. */
  function Activate(cs: seq<NamedCache>): (r: seq<NamedCache>)
    ensures forall i :: 0 <= i < |r| ==> r[i].name in KeptCaches && r[i] in cs
    ensures forall i :: 0 <= i < |cs| && cs[i].name in KeptCaches ==> cs[i] in r
    decreases |cs|
  {
    if |cs| == 0 then []
    else if cs[0].name in KeptCaches then [cs[0]] + Activate(cs[1..])
    else Activate(cs[1..])
  }

  // ---------------------------------------------------------------------
  // fetch
  // ---------------------------------------------------------------------

  datatype Request = Request(httpMethod: string, url: string, mode: string, destination: string)

  /** The worker's answer: not intercepted (the browser fetches as usual),
      or a response, `None` standing for a network error; with the caches
      afterwards. */
  datatype Answer = NotHandled | Responded(response: Option<Response>)

  datatype Handled = Handled(answer: Answer, caches: seq<NamedCache>)

  /** Store an ok response under the worker's cache. */
  function Keep(cs: seq<NamedCache>, url: string, resp: Response): seq<NamedCache> {
    if Storable(resp) then Put(cs, CacheName, url, resp) else cs
  }

  /** Network first: the network's answer, whatever its status, cached when
      ok; on a network error, the cached page or else the offline page. */
  function Navigate(cs: seq<NamedCache>, origin: string, url: string, net: Network): (r: Handled)
    ensures net(url).Some? ==> r.answer == Responded(net(url))
    ensures net(url).Some? && Storable(net(url).value) ==> r.caches == Put(cs, CacheName, url, net(url).value)
    ensures net(url).Some? && !Storable(net(url).value) ==> r.caches == cs
    ensures net(url).None? ==> r.caches == cs
    ensures net(url).None? && Match(cs, url).Some? ==> r.answer == Responded(Match(cs, url))
    ensures net(url).None? && Match(cs, url).None? ==> r.answer == Responded(Match(cs, Resolve(origin, OfflinePath)))
  {
    match net(url)
    case Some(resp) => Handled(Responded(Some(resp)), Keep(cs, url, resp))
    case None =>
      var cached := Match(cs, url);
      Handled(Responded(if cached.Some? then cached else Match(cs, Resolve(origin, OfflinePath))), cs)
  }

  /** Cache first: a cached entry without touching the network; otherwise
      the network's answer, cached when ok. `onError` is what a network
      error turns into. */
  function CacheFirst(cs: seq<NamedCache>, url: string, net: Network, onError: Option<Response>): (r: Handled)
    ensures Match(cs, url).Some? ==> r == Handled(Responded(Match(cs, url)), cs)
    ensures Match(cs, url).None? && net(url).Some? ==> r.answer == Responded(net(url))
    ensures Match(cs, url).None? && net(url).Some? && Storable(net(url).value) ==>
      r.caches == Put(cs, CacheName, url, net(url).value)
    ensures Match(cs, url).None? && net(url).Some? && !Storable(net(url).value) ==> r.caches == cs
    ensures Match(cs, url).None? && net(url).None? ==> r == Handled(Responded(onError), cs)
  {
    var cached := Match(cs, url);
    if cached.Some? then Handled(Responded(cached), cs)
    else match net(url)
      case Some(resp) => Handled(Responded(Some(resp)), Keep(cs, url, resp))
      case None => Handled(Responded(onError), cs)
  }

  /** A request the worker does not pass straight through: a GET that is
      not for OneSignal. */
  predicate Intercepted(req: Request) {
    req.httpMethod == "GET" && !Contains(req.url, "onesignal.com")
  }

  /** The `fetch` event: navigations are recognised by their mode before
      any destination is looked at; requests for anything but images,
      fonts, scripts and styles are left to the browser. */
  function Fetch(cs: seq<NamedCache>, origin: string, req: Request, net: Network): (r: Handled)
    ensures req.httpMethod != "GET" || Contains(req.url, "onesignal.com") ==> r == Handled(NotHandled, cs)
    ensures r.answer.NotHandled? ==> r.caches == cs
    ensures Intercepted(req) && req.mode == "navigate" ==> r == Navigate(cs, origin, req.url, net)
    ensures Intercepted(req) && req.mode != "navigate" && req.destination in {"image", "font"} ==>
      r == CacheFirst(cs, req.url, net, Some(Response(404, "")))
    ensures Intercepted(req) && req.mode != "navigate" && req.destination in {"script", "style"} ==>
      r == CacheFirst(cs, req.url, net, None)
    ensures req.mode != "navigate" && req.destination !in {"image", "font", "script", "style"} ==>
      r == Handled(NotHandled, cs)
  {
    if req.httpMethod != "GET" || Contains(req.url, "onesignal.com") then Handled(NotHandled, cs)
    else if req.mode == "navigate" then Navigate(cs, origin, req.url, net)
    else if req.destination == "image" || req.destination == "font" then
      CacheFirst(cs, req.url, net, Some(Response(404, "")))
    else if req.destination == "script" || req.destination == "style" then
      CacheFirst(cs, req.url, net, None)
    else Handled(NotHandled, cs)
  }

  // ---------------------------------------------------------------------
  // Properties
  // ---------------------------------------------------------------------

  /** The storage layer's cache is among the ones activation keeps. */
  lemma AuthCacheKept(cs: seq<NamedCache>, i: nat)
    requires i < |cs| && cs[i].name == PersistentStorage.CacheName
    ensures cs[i] in Activate(cs)
  {
  }

  /** Activation deletes exactly the caches not in the kept list, keeping
      the survivors' contents and order. */
  lemma {:induction false} ActivateKeepsExactly(cs: seq<NamedCache>)
    ensures Names(Activate(cs)) == FilterKept(Names(cs))
    ensures Activate(Activate(cs)) == Activate(cs)
    decreases |cs|
  {
    if |cs| > 0 {
      ActivateKeepsExactly(cs[1..]);
      assert Names(cs)[1..] == Names(cs[1..]);
      if cs[0].name in KeptCaches {
        assert ([cs[0]] + Activate(cs[1..]))[1..] == Activate(cs[1..]);
      }
    }
  }

  function FilterKept(names: seq<string>): seq<string>
    decreases |names|
  {
    if |names| == 0 then []
    else if names[0] in KeptCaches then [names[0]] + FilterKept(names[1..])
    else FilterKept(names[1..])
  }

  /** A successful install leaves every app-shell file in `sp-cache-v3`,
      as fetched. */
  lemma InstallStoresShell(cs: seq<NamedCache>, origin: string, net: Network, f: nat)
    requires f < |EssentialFiles|
    requires Install(cs, origin, net).done
    ensures
      var r := Install(cs, origin, net).caches;
      var i := Open(cs, CacheName).1;
      && i < |r| && r[i].name == CacheName
      && Resolve(origin, EssentialFiles[f]) in r[i].entries
      && r[i].entries[Resolve(origin, EssentialFiles[f])] == net(Resolve(origin, EssentialFiles[f])).value
  {
    var urls := EssentialUrls(origin);
    assert urls[f] == Resolve(origin, EssentialFiles[f]);
  }

  /** Once the shell is installed and the worker activated, an offline
      navigation is always answered: with the cached page if there is one,
      otherwise with a cached offline page. */
  lemma OfflineNavigationAnswered(cs: seq<NamedCache>, origin: string, install: Network, url: string, net: Network)
    requires Install(cs, origin, install).done
    requires net(url).None?
    ensures
      var live := Activate(Install(cs, origin, install).caches);
      var r := Fetch(live, origin, Request("GET", url, "navigate", "document"), net);
      !Contains(url, "onesignal.com") ==> r.answer.Responded? && r.answer.response.Some?
  {
    var installed := Install(cs, origin, install).caches;
    var i := Open(cs, CacheName).1;
    var offline := Resolve(origin, OfflinePath);
    InstallStoresShell(cs, origin, install, 2);
    assert installed[i] in Activate(installed);
    var live := Activate(installed);
    var k :| 0 <= k < |live| && live[k] == installed[i];
    assert offline in live[k].entries;
    assert Match(live, offline).Some?;
  }

  /** A navigation the network answers gets that answer, even an error
      status, and never the cache; a cached image is served without the
      network. */
  lemma StrategiesDiffer(cs: seq<NamedCache>, origin: string, url: string, net: Network, cached: Response)
    requires !Contains(url, "onesignal.com")
    requires Match(cs, url) == Some(cached)
    requires net(url).Some?
    ensures Fetch(cs, origin, Request("GET", url, "navigate", "document"), net).answer == Responded(net(url))
    ensures Fetch(cs, origin, Request("GET", url, "no-cors", "image"), net) == Handled(Responded(Some(cached)), cs)
  {
  }

  /** An image the network cannot deliver, and that is not cached, becomes
      an empty 404; a script becomes a network error. */
  lemma StaticFallbacks(cs: seq<NamedCache>, origin: string, url: string, net: Network)
    requires !Contains(url, "onesignal.com")
    requires Match(cs, url).None? && net(url).None?
    ensures Fetch(cs, origin, Request("GET", url, "no-cors", "image"), net).answer == Responded(Some(Response(404, "")))
    ensures Fetch(cs, origin, Request("GET", url, "no-cors", "script"), net).answer == Responded(None)
  {
  }

  /** An ok response fetched for a navigation is what a later offline
      navigation to the same URL gets back, unless an older cache already
      holds that URL. */
  lemma NavigationCachedForOffline(cs: seq<NamedCache>, origin: string, url: string, net: Network, offline: Network)
    requires !Contains(url, "onesignal.com")
    requires net(url).Some? && Storable(net(url).value) && offline(url).None?
    requires forall i :: 0 <= i < |cs| && cs[i].name != CacheName ==> url !in cs[i].entries
    ensures
      var first := Fetch(cs, origin, Request("GET", url, "navigate", "document"), net);
      Fetch(first.caches, origin, Request("GET", url, "navigate", "document"), offline).answer == Responded(net(url))
  {
    var first := Navigate(cs, origin, url, net);
    var o := Open(cs, CacheName);
    var present := o.0;
    var i := o.1;
    var after := first.caches;
    assert after == Put(cs, CacheName, url, net(url).value);
    assert url in after[i].entries && after[i].entries[url] == net(url).value;
    forall j | 0 <= j < i ensures url !in after[j].entries {
      assert after[j] == present[j];
      if CacheName in Names(cs) {
        assert present[j] == cs[j] && cs[j].name != CacheName;
      } else {
        assert present[j] == cs[j] && cs[j].name != CacheName;
      }
    }
    MatchFirst(after, url, i);
  }

  lemma {:induction false} MatchFirst(cs: seq<NamedCache>, url: string, i: nat)
    requires i < |cs| && url in cs[i].entries
    requires forall j :: 0 <= j < i ==> url !in cs[j].entries
    ensures Match(cs, url) == Some(cs[i].entries[url])
    decreases i
  {
    if i > 0 {
      MatchFirst(cs[1..], url, i - 1);
    }
  }
}

=== FILE: setup_page.dfy ===
/**
  The installation effect of the `/setup` page (src/pages/Setup.tsx, the
  effect keyed on `installed`): outside the installed app it asks the
  server for an install code and pins `/setup?code=…` in the address bar,
  so that the home-screen shortcut opens on it; inside the installed app it
  exchanges the code from the URL, or the one kept in `localStorage`, for
  an OTP and logs in.

  One run of the effect is one function from the page's state, the
  `installed` flag, the URL and the answers of `functions.invoke` and
  `auth.verifyOtp` to the page's state once the promise chain has settled,
  together with the calls it made. The half-second delay before
  navigating home is folded into that settled state.
*/
module SetupPage {
  import opened Base
  import opened JsValue
  import opened Text
  import UriComponent

  const StorageKey: string := "install_code"
  const SetupPath: string := "/setup"

  const Activating: string := "Ativando seu acesso..."
  const Activated: string := "Acesso ativado! Redirecionando..."
  const Preparing: string := "Preparando instalação..."
  const AlmostThere: string := "Quase lá! Adicione o app à Tela Inicial."
  const EmailMissing: string := "Parâmetro \"email\" é obrigatório para preparar a instalação."
  const OtpMissing: string := "Falha ao obter OTP"
  const ActivationFailed: string := "Não foi possível ativar seu acesso."
  const CodeMissing: string := "Falha ao gerar code"
  const PreparationFailed: string := "Falha ao preparar instalação."
  const InstalledWithoutCode: string :=
    "Instalado, mas sem código de ativação. Abra novamente o link de configuração para concluir."

  // ---------------------------------------------------------------------
  // Reading the query string
  // ---------------------------------------------------------------------

  /** `+` as space, as form decoding does before percent-decoding. */
  function PlusAsSpace(s: string): (r: string)
    ensures |r| == |s|
    ensures forall i :: 0 <= i < |s| ==> r[i] == (if s[i] == '+' then ' ' else s[i])
  {
    if |s| == 0 then "" else [if s[0] == '+' then ' ' else s[0]] + PlusAsSpace(s[1..])
  }

  /** A form-encoded value: `+` is a space, then percent escapes are
      decoded; when any escape is malformed or the escapes do not spell
      valid UTF-8, no escape is decoded and the whole value is kept as
      written (with `+` still read as a space). */
  function FormDecode(s: string): string {
    var t := PlusAsSpace(s);
    UriComponent.Decode(t).GetOr(t)
  }

  /** The value of the first `name=value` pair named `name`; a pair without
      `=` has the empty value. */
  function FirstValue(pairs: seq<string>, name: string): (r: Option<string>)
    ensures r.None? <==> forall i :: 0 <= i < |pairs| ==> Split(pairs[i], "=")[0] != name
    decreases |pairs|
  {
    if |pairs| == 0 then None
    else
      var pieces := Split(pairs[0], "=");
      if pieces[0] == name then Some(FormDecode(Join(pieces[1..], "=")))
      else FirstValue(pairs[1..], name)
  }

  /** `new URLSearchParams(search).get(name)`, for a search string without
      its leading `?`. */
  function QueryGet(search: string, name: string): Option<string> {
    FirstValue(Split(search, "&"), name)
  }

  /** The search part of a URL without fragment: everything after the first
      `?`. */
  function SearchOf(url: string): string {
    if '?' in url then Join(Split(url, "?")[1..], "?") else ""
  }

  // ---------------------------------------------------------------------
  // State, calls and answers
  // ---------------------------------------------------------------------

  /** `localStorage['install_code']`, with whether writes and reads go
      through (both are wrapped in `try`). */
  datatype Stored = Stored(value: Option<string>, writable: bool, readable: bool)

  /** The page's state (`status`, `error`, `code`), its `exchangingRef`,
      the stored code, where `location.replace` sent the page, and whether
      it navigated home. */
  datatype Page = Page(
    status: string,
    error: Option<string>,
    code: Option<string>,
    exchanging: bool,
    stored: Stored,
    location: Option<string>,
    home: bool)

  /** A fresh page over whatever `localStorage` holds. */
  function Fresh(stored: Stored): Page {
    Page("", None, None, false, stored, None, false)
  }

  /** The requests sent to `generate-link`. */
  datatype Call =
    | ExchangeCall(code: string)
    | CreateCall(email: string, name: Option<string>, whId: Option<string>, inst: Option<string>, redirectTo: string)

  /** `supabase.functions.invoke`: rejected with a message, or resolved
      with its error (and that error's message) and data. */
  datatype InvokeAnswer = InvokeThrew(message: string) | Invoked(error: Option<string>, data: Value)

  /** What the settled chain depends on: the invoke answer and the
      `verifyOtp` error (its message), if any. */
  datatype Answers = Answers(invoke: InvokeAnswer, verifyError: Option<string>)

  datatype Run = Run(page: Page, calls: seq<Call>)

  function WriteStored(s: Stored, v: Option<string>): (r: Stored)
    ensures r.writable == s.writable && r.readable == s.readable
    ensures r.value == (if s.writable then v else s.value)
  {
    if s.writable then s.(value := v) else s
  }

  /** `localStorage.getItem(key) || null`, with a throwing read as `null`. */
  function ReadStored(s: Stored): (r: Option<string>)
    ensures r.Some? <==> s.readable && s.value.Some? && |s.value.value| > 0
    ensures r.Some? ==> r == s.value
  {
    if s.readable then NonEmpty(s.value) else None
  }

  /** A string field of the reply, when present. */
  function Field(data: Value, name: string): Option<string> {
    var v := Member(data, name);
    if v.Str? then Some(v.s) else None
  }

  /** Whether an exchange reply carries everything the login needs. */
  predicate ExchangeReplyOk(a: InvokeAnswer) {
    a.Invoked? && a.error.None? && Truthy(Member(a.data, "ok"))
    && Truthy(Member(a.data, "email")) && Truthy(Member(a.data, "email_otp"))
  }

  /** Whether a create reply carries a code. */
  predicate CreateReplyOk(a: InvokeAnswer) {
    a.Invoked? && a.error.None? && Truthy(Member(a.data, "ok"))
    && Field(a.data, "code").Some? && |Field(a.data, "code").value| > 0
  }

  /** The message the exchange's `catch` shows. */
  function ExchangeError(ans: Answers): string
    requires !(ExchangeReplyOk(ans.invoke) && ans.verifyError.None?)
  {
    match ans.invoke
    case InvokeThrew(m) => OrElse(Some(m), ActivationFailed)
    case Invoked(err, data) =>
      if !ExchangeReplyOk(ans.invoke) then OrElse(err, OrElse(Field(data, "error"), OtpMissing))
      else OrElse(ans.verifyError, ActivationFailed)
  }

  /** Exchange `code` for an OTP and log in: on success the stored code is
      removed and the page goes home; on failure the error is shown, and
      `exchangingRef` stays set either way. */
  function Exchange(pg: Page, code: string, ans: Answers): (r: Run)
    ensures r.calls == [ExchangeCall(code)] && r.page.exchanging
    ensures r.page.code == pg.code && r.page.location == pg.location
    ensures r.page.home <==> pg.home || (ExchangeReplyOk(ans.invoke) && ans.verifyError.None?)
  {
    var started := pg.(exchanging := true, status := Activating);
    if ExchangeReplyOk(ans.invoke) && ans.verifyError.None? then
      Run(started.(stored := WriteStored(pg.stored, None), status := Activated, home := true), [ExchangeCall(code)])
    else
      Run(started.(error := Some(ExchangeError(ans)), status := ""), [ExchangeCall(code)])
  }

  /** The address the page pins once it has a code. */
  function PinnedUrl(origin: string, code: string): string {
    origin + SetupPath + "?code=" + UriComponent.Encode(code)
  }

  /** Ask for an install code, then pin it in the URL and keep it in
      `localStorage`. */
  function Create(pg: Page, email: string, search: string, origin: string, ans: Answers): (r: Run)
    ensures |r.calls| == 1 && r.calls[0].CreateCall? && r.calls[0].email == email
    ensures r.calls[0].redirectTo == origin + "/"
    ensures r.page.exchanging == pg.exchanging && r.page.home == pg.home
    ensures CreateReplyOk(ans.invoke) ==>
      var code := Field(ans.invoke.data, "code").value;
      && r.page.code == Some(code)
      && r.page.location == Some(PinnedUrl(origin, code))
      && r.page.stored == WriteStored(pg.stored, Some(code))
      && r.page.error == pg.error
    ensures !CreateReplyOk(ans.invoke) ==> r.page.error.Some? && r.page.stored == pg.stored && r.page.location == pg.location
  {
    var call := CreateCall(email, NonEmpty(QueryGet(search, "name")), NonEmpty(QueryGet(search, "wh_id")),
                           NonEmpty(QueryGet(search, "inst")), origin + "/");
    var started := pg.(status := Preparing);
    if CreateReplyOk(ans.invoke) then
      var code := Field(ans.invoke.data, "code").value;
      Run(started.(code := Some(code), location := Some(PinnedUrl(origin, code)),
                   stored := WriteStored(pg.stored, Some(code)), status := AlmostThere), [call])
    else
      var message :=
        match ans.invoke
        case InvokeThrew(m) => OrElse(Some(m), PreparationFailed)
        case Invoked(err, data) => OrElse(err, OrElse(Field(data, "error"), CodeMissing));
      Run(started.(error := Some(message), status := ""), [call])
  }

  /** One run of the effect, for the page at `origin` with query `search`. */
  function Effect(pg: Page, installed: bool, search: string, origin: string, ans: Answers): (r: Run)
    ensures |r.calls| <= 1
    ensures r.page.exchanging == (pg.exchanging || (|r.calls| == 1 && r.calls[0].ExchangeCall?))
    ensures |r.calls| == 1 && r.calls[0].ExchangeCall? ==> !pg.exchanging && installed
  {
    var existing := NonEmpty(QueryGet(search, "code"));
    var email := NonEmpty(QueryGet(search, "email"));
    if installed && existing.Some? && !pg.exchanging then Exchange(pg, existing.value, ans)
    else if !installed && existing.None? then
      if email.None? then Run(pg.(error := Some(EmailMissing)), [])
      else Create(pg, email.value, search, origin, ans)
    else if !installed then
      Run(pg.(code := existing, stored := WriteStored(pg.stored, existing), status := AlmostThere), [])
    else if existing.None? then
      var stored := ReadStored(pg.stored);
      if stored.Some? && !pg.exchanging then Exchange(pg, stored.value, ans)
      else Run(pg.(status := "", error := Some(InstalledWithoutCode)), [])
    else Run(pg, [])
  }

  // ---------------------------------------------------------------------
  // Properties
  // ---------------------------------------------------------------------

  /** Which branch runs: a code is requested exactly outside the app with
      neither code nor e-mail missing, and an exchange is attempted exactly
      inside the app, before any other exchange, with a code from the URL or
      from storage. The two dead ends show their errors: a missing e-mail
      outside the app, and no code at all inside it. */
  lemma EffectBranches(pg: Page, installed: bool, search: string, origin: string, ans: Answers)
    ensures
      var r := Effect(pg, installed, search, origin, ans);
      var existing := NonEmpty(QueryGet(search, "code"));
      && ((|r.calls| == 1 && r.calls[0].CreateCall?) <==>
            !installed && existing.None? && NonEmpty(QueryGet(search, "email")).Some?)
      && ((|r.calls| == 1 && r.calls[0].ExchangeCall?) <==>
            installed && !pg.exchanging && (existing.Some? || ReadStored(pg.stored).Some?))
      && (|r.calls| == 1 && r.calls[0].ExchangeCall? ==>
            r.calls[0].code == (if existing.Some? then existing.value else ReadStored(pg.stored).value))
      && (!installed && existing.None? && NonEmpty(QueryGet(search, "email")).None? ==>
            r.calls == [] && r.page == pg.(error := Some(EmailMissing)))
      && (installed && existing.None? && (ReadStored(pg.stored).None? || pg.exchanging) ==>
            r.calls == [] && r.page == pg.(status := "", error := Some(InstalledWithoutCode)))
  {
  }

  /** Outside the app a code already in the URL is kept and stored, with no
      request. */
  lemma CodeInUrlIsKept(pg: Page, search: string, origin: string, ans: Answers)
    requires NonEmpty(QueryGet(search, "code")).Some?
    ensures
      var r := Effect(pg, false, search, origin, ans);
      && r.calls == []
      && r.page.code == QueryGet(search, "code")
      && r.page.stored == WriteStored(pg.stored, QueryGet(search, "code"))
  {
  }

  /** A successful exchange forgets the stored code and goes home; a
      failed one keeps it and shows a non-empty error. */
  lemma ExchangeSettles(pg: Page, code: string, ans: Answers)
    ensures
      var r := Exchange(pg, code, ans);
      && (ExchangeReplyOk(ans.invoke) && ans.verifyError.None? ==>
            r.page.home && r.page.stored == WriteStored(pg.stored, None) && r.page.error == pg.error)
      && (!(ExchangeReplyOk(ans.invoke) && ans.verifyError.None?) ==>
            r.page.stored == pg.stored && r.page.error.Some? && |r.page.error.value| > 0)
  {
  }

  /** One run of the effect per entry, each with its inputs. */
  datatype Trigger = Trigger(installed: bool, search: string, origin: string, ans: Answers)

  function Runs(pg: Page, ts: seq<Trigger>): (r: Run)
    decreases |ts|
  {
    if |ts| == 0 then Run(pg, [])
    else
      var first := Effect(pg, ts[0].installed, ts[0].search, ts[0].origin, ts[0].ans);
      var rest := Runs(first.page, ts[1..]);
      Run(rest.page, first.calls + rest.calls)
  }

  function ExchangeCount(calls: seq<Call>): nat
    decreases |calls|
  {
    if |calls| == 0 then 0 else (if calls[0].ExchangeCall? then 1 else 0) + ExchangeCount(calls[1..])
  }

  lemma {:induction false} ExchangeCountAppend(a: seq<Call>, b: seq<Call>)
    ensures ExchangeCount(a + b) == ExchangeCount(a) + ExchangeCount(b)
    decreases |a|
  {
    if |a| == 0 {
      assert a + b == b;
    } else {
      assert (a + b)[0] == a[0];
      assert (a + b)[1..] == a[1..] + b;
      ExchangeCountAppend(a[1..], b);
    }
  }

  /** `exchangingRef` makes the exchange happen at most once per page,
      however often the effect re-runs and whether or not the first attempt
      failed. */
  lemma {:induction false} AtMostOneExchange(pg: Page, ts: seq<Trigger>)
    ensures ExchangeCount(Runs(pg, ts).calls) <= (if pg.exchanging then 0 else 1)
    ensures pg.exchanging ==> Runs(pg, ts).page.exchanging
    decreases |ts|
  {
    if |ts| > 0 {
      var first := Effect(pg, ts[0].installed, ts[0].search, ts[0].origin, ts[0].ans);
      AtMostOneExchange(first.page, ts[1..]);
      ExchangeCountAppend(first.calls, Runs(first.page, ts[1..]).calls);
      if |first.calls| == 1 {
        assert first.calls == [first.calls[0]];
        assert ExchangeCount(first.calls) == (if first.calls[0].ExchangeCall? then 1 else 0) + ExchangeCount([]);
      } else {
        assert first.calls == [];
      }
    }
  }

  lemma {:induction false} PlusAsSpaceIdentity(s: string)
    requires '+' !in s
    ensures PlusAsSpace(s) == s
  {
  }

  /** The search part of the pinned address is `code=` and the encoded
      code. */
  lemma PinnedSearch(origin: string, code: string)
    requires '?' !in origin
    ensures SearchOf(PinnedUrl(origin, code)) == "code=" + UriComponent.Encode(code)
  {
    var query := "code=" + UriComponent.Encode(code);
    assert PinnedUrl(origin, code) == (origin + SetupPath) + ['?'] + query;
    AfterFirst(origin + SetupPath, '?', query);
  }

  /** A single `code=` pair whose value has no `&` or `+` reads back as
      the percent-decoding of that value. */
  lemma SinglePair(e: string, code: string)
    requires '&' !in e && '+' !in e
    requires UriComponent.Decode(e) == Some(code)
    ensures QueryGet("code=" + e, "code") == Some(code)
  {
    var query := "code=" + e;
    assert '&' !in query;
    SplitWithoutSeparator(query, "&");
    assert query == "code" + ['='] + e;
    AfterFirst("code", '=', e);
    SplitAfterPiece("code", "=", e);
    PlusAsSpaceIdentity(e);
  }

  /** The pinned address carries the code: its query has exactly one
      parameter, `code`, which reads back as the code itself. */
  lemma PinnedUrlCarriesCode(origin: string, code: string)
    requires '?' !in origin
    ensures QueryGet(SearchOf(PinnedUrl(origin, code)), "code") == Some(code)
  {
    PinnedSearch(origin, code);
    UriComponent.EncodeHasNo(code, '&');
    UriComponent.EncodeHasNo(code, '+');
    UriComponent.DecodeEncode(code);
    SinglePair(UriComponent.Encode(code), code);
  }

  /** End to end: the shortcut opening the pinned address inside the
      installed app exchanges exactly the code the server issued; opened in
      the browser again, it keeps the code without asking for a new one. */
  lemma PinnedUrlLeadsToExchange(stored: Stored, origin: string, code: string, ans: Answers)
    requires '?' !in origin && |code| > 0
    ensures Effect(Fresh(stored), true, SearchOf(PinnedUrl(origin, code)), origin, ans).calls == [ExchangeCall(code)]
    ensures Effect(Fresh(stored), false, SearchOf(PinnedUrl(origin, code)), origin, ans).calls == []
  {
    PinnedUrlCarriesCode(origin, code);
  }
}

=== FILE: text.dfy ===
/**
  The string operations the source uses: `startsWith`, `includes`, and
  `split`/`join` with a non-empty separator, with the lemmas that make a
  split undo a join and a join undo a split.
*/
module Text {

  predicate StartsWith(s: string, prefix: string) {
    |prefix| <= |s| && s[..|prefix|] == prefix
  }

  /** `s.includes(sub)`. */
  predicate Contains(s: string, sub: string)
    decreases |s|
  {
    StartsWith(s, sub) || (|s| > 0 && Contains(s[1..], sub))
  }

  /** `s.split(sep)` for a non-empty separator: cut at every leftmost,
      non-overlapping occurrence of `sep`. */
  function Split(s: string, sep: string): (parts: seq<string>)
    requires |sep| > 0
    ensures |parts| >= 1
    decreases |s|
  {
    if |s| < |sep| then [s]
    else if s[..|sep|] == sep then [""] + Split(s[|sep|..], sep)
    else
      var rest := Split(s[1..], sep);
      [[s[0]] + rest[0]] + rest[1..]
  }

  /** `parts.join(sep)`. */
  function Join(parts: seq<string>, sep: string): string
    decreases |parts|
  {
    if |parts| == 0 then ""
    else if |parts| == 1 then parts[0]
    else parts[0] + sep + Join(parts[1..], sep)
  }

  lemma {:induction false} JoinConsHead(c: char, x: string, rest: seq<string>, sep: string)
    ensures Join([[c] + x] + rest, sep) == [c] + Join([x] + rest, sep)
  {
    if |rest| == 0 {
      assert [[c] + x] + rest == [[c] + x];
      assert [x] + rest == [x];
    } else {
      assert ([[c] + x] + rest)[1..] == rest;
      assert ([x] + rest)[1..] == rest;
    }
  }

  /** Joining the pieces of a split gives back the original string. */
  lemma {:induction false} JoinSplit(s: string, sep: string)
    requires |sep| > 0
    ensures Join(Split(s, sep), sep) == s
    decreases |s|
  {
    if |s| < |sep| {
    } else if s[..|sep|] == sep {
      var rest := Split(s[|sep|..], sep);
      JoinSplit(s[|sep|..], sep);
      assert ([""] + rest)[1..] == rest;
      assert s == sep + s[|sep|..];
    } else {
      var rest := Split(s[1..], sep);
      JoinSplit(s[1..], sep);
      assert [rest[0]] + rest[1..] == rest;
      JoinConsHead(s[0], rest[0], rest[1..], sep);
      assert s == [s[0]] + s[1..];
    }
  }

  /** A string with no character of the separator's first letter is not cut. */
  lemma {:induction false} SplitWithoutSeparator(s: string, sep: string)
    requires |sep| > 0
    requires sep[0] !in s
    ensures Split(s, sep) == [s]
    decreases |s|
  {
    if |s| < |sep| {
    } else {
      assert s[0] in s;
      assert s[..|sep|][0] == s[0];
      assert s[1..] == s[1..] && forall c :: c in s[1..] ==> c in s;
      SplitWithoutSeparator(s[1..], sep);
      assert [s[0]] + s[1..] == s;
    }
  }

  /** The first piece of `p + sep + rest` is `p` when `p` cannot start a
      separator anywhere. */
  lemma {:induction false} SplitAfterPiece(p: string, sep: string, rest: string)
    requires |sep| > 0
    requires sep[0] !in p
    ensures Split(p + sep + rest, sep) == [p] + Split(rest, sep)
    decreases |p|
  {
    var s := p + sep + rest;
    if |p| == 0 {
      assert s == sep + rest;
      assert s[..|sep|] == sep;
      assert s[|sep|..] == rest;
    } else {
      assert s[0] == p[0] && p[0] in p;
      assert s[..|sep|][0] == s[0];
      assert s[1..] == p[1..] + sep + rest;
      assert forall c :: c in p[1..] ==> c in p;
      SplitAfterPiece(p[1..], sep, rest);
      assert [p[0]] + p[1..] == p;
    }
  }

  /** Splitting a join recovers the pieces, provided no piece contains the
      separator's first character. */
  lemma {:induction false} SplitJoin(parts: seq<string>, sep: string)
    requires |sep| > 0 && |parts| >= 1
    requires forall i :: 0 <= i < |parts| ==> sep[0] !in parts[i]
    ensures Split(Join(parts, sep), sep) == parts
    decreases |parts|
  {
    if |parts| == 1 {
      SplitWithoutSeparator(parts[0], sep);
    } else {
      SplitAfterPiece(parts[0], sep, Join(parts[1..], sep));
      SplitJoin(parts[1..], sep);
      assert [parts[0]] + parts[1..] == parts;
    }
  }

  /** `p.split(c).slice(1).join(c)` is everything after the first `c`, even
      when that remainder contains further `c`s. */
  lemma AfterFirst(name: string, c: char, rest: string)
    requires c !in name
    ensures Join(Split(name + [c] + rest, [c])[1..], [c]) == rest
  {
    SplitAfterPiece(name, [c], rest);
    assert Split(name + [c] + rest, [c])[1..] == Split(rest, [c]);
    JoinSplit(rest, [c]);
  }
}

=== FILE: uri_component.dfy ===
/**
  `encodeURIComponent` and `decodeURIComponent` as ECMAScript defines them
  (sections 19.2.6.4 and 19.2.6.2, built on the Encode and Decode abstract
  operations of 19.2.6.5 and 19.2.6.6): every character outside the
  unreserved set becomes the percent-escaped bytes of its UTF-8 encoding, and
  decoding rejects malformed escapes and invalid UTF-8 (where JavaScript
  throws `URIError`).

  Dafny characters are Unicode scalar values, so the lone surrogates on which
  `encodeURIComponent` throws cannot occur here.
*/
module UriComponent {
  import opened Base

  /** Characters `encodeURIComponent` leaves alone: letters, digits and
      `- _ . ! ~ * ' ( )`. */
  predicate Unreserved(c: char) {
    || ('A' <= c <= 'Z') || ('a' <= c <= 'z') || ('0' <= c <= '9')
    || c == '-' || c == '_' || c == '.' || c == '!' || c == '~'
    || c == '*' || c == '\'' || c == '(' || c == ')'
  }

  predicate IsHex(c: char) {
    ('0' <= c <= '9') || ('a' <= c <= 'f') || ('A' <= c <= 'F')
  }

  function HexValue(c: char): (v: int)
    requires IsHex(c)
    ensures 0 <= v < 16
  {
    if '0' <= c <= '9' then c as int - '0' as int
    else if 'a' <= c <= 'f' then c as int - 'a' as int + 10
    else c as int - 'A' as int + 10
  }

  /** Upper-case hexadecimal digit, as `encodeURIComponent` writes it. */
  function HexDigit(n: int): (c: char)
    requires 0 <= n < 16
    ensures IsHex(c) && HexValue(c) == n
  {
    if n < 10 then ('0' as int + n) as char else ('A' as int + n - 10) as char
  }

  predicate IsByte(b: int) { 0 <= b < 256 }

  /** `%XY` for one byte. */
  function Escape(b: int): (e: string)
    requires IsByte(b)
    ensures |e| == 3 && e[0] == '%'
  {
    ['%', HexDigit(b / 16), HexDigit(b % 16)]
  }

  predicate IsScalar(cp: int) {
    (0 <= cp < 0xD800) || (0xE000 <= cp < 0x11_0000)
  }

  /** The UTF-8 encoding of a code point. */
  function Utf8(cp: int): (bytes: seq<int>)
    requires IsScalar(cp)
    ensures 1 <= |bytes| <= 4
    ensures forall i :: 0 <= i < |bytes| ==> IsByte(bytes[i])
  {
    if cp < 0x80 then [cp]
    else if cp < 0x800 then [0xC0 + cp / 64, 0x80 + cp % 64]
    else if cp < 0x1_0000 then [0xE0 + cp / 4096, 0x80 + (cp / 64) % 64, 0x80 + cp % 64]
    else [0xF0 + cp / 262144, 0x80 + (cp / 4096) % 64, 0x80 + (cp / 64) % 64, 0x80 + cp % 64]
  }

  function EscapeAll(bytes: seq<int>): (e: string)
    requires forall i :: 0 <= i < |bytes| ==> IsByte(bytes[i])
    ensures |e| == 3 * |bytes|
  {
    if |bytes| == 0 then "" else Escape(bytes[0]) + EscapeAll(bytes[1..])
  }

  function EncodeChar(c: char): string {
    if Unreserved(c) then [c] else EscapeAll(Utf8(c as int))
  }

  /** `encodeURIComponent(s)`. */
  function Encode(s: string): string {
    if |s| == 0 then "" else EncodeChar(s[0]) + Encode(s[1..])
  }

  /** The byte written as `%XY` at position `k` of `s`, if there is one. */
  function EscapedByte(s: string, k: nat): (r: Option<int>)
    ensures r.Some? ==> IsByte(r.value) && k + 3 <= |s|
  {
    if k + 3 <= |s| && s[k] == '%' && IsHex(s[k + 1]) && IsHex(s[k + 2])
    then Some(16 * HexValue(s[k + 1]) + HexValue(s[k + 2]))
    else None
  }

  /** Number of bytes announced by a UTF-8 lead byte (0 when the byte cannot
      start a multi-byte sequence). */
  function SequenceLength(lead: int): int {
    if 0xC0 <= lead < 0xE0 then 2
    else if 0xE0 <= lead < 0xF0 then 3
    else if 0xF0 <= lead < 0xF8 then 4
    else 0
  }

  predicate IsContinuation(b: int) { 0x80 <= b < 0xC0 }

  /** The `n - 1` continuation bytes escaped after the lead escape, each
      required to be `10xxxxxx`. */
  function Continuations(s: string, n: nat): (r: Option<seq<int>>)
    requires 1 <= n <= 4
    ensures r.Some? ==> |r.value| == n - 1 && 3 * n <= |s|
    ensures r.Some? ==> forall i :: 0 <= i < n - 1 ==> IsContinuation(r.value[i])
    decreases n
  {
    if n == 1 then (if 3 <= |s| then Some([]) else None)
    else match Continuations(s, n - 1)
      case None => None
      case Some(prefix) =>
        match EscapedByte(s, 3 * (n - 1))
        case Some(b) => if IsContinuation(b) then Some(prefix + [b]) else None
        case None => None
  }

  /** The code point of a lead byte and its continuation bytes, if they form
      a valid (shortest-form, non-surrogate, in-range) UTF-8 sequence. */
  function CodePoint(lead: int, cont: seq<int>): (r: Option<int>)
    requires |cont| == SequenceLength(lead) - 1 >= 1
    ensures r.Some? ==> IsScalar(r.value)
  {
    var cp :=
      if |cont| == 1 then (lead - 0xC0) * 64 + (cont[0] - 0x80)
      else if |cont| == 2 then (lead - 0xE0) * 4096 + (cont[0] - 0x80) * 64 + (cont[1] - 0x80)
      else (lead - 0xF0) * 262144 + (cont[0] - 0x80) * 4096 + (cont[1] - 0x80) * 64 + (cont[2] - 0x80);
    var least := if |cont| == 1 then 0x80 else if |cont| == 2 then 0x800 else 0x1_0000;
    if least <= cp && IsScalar(cp) then Some(cp) else None
  }

  /** One escaped character at the head of `s`: the character and how many
      characters of `s` its escapes occupy. */
  function DecodeEscape(s: string): (r: Option<(char, nat)>)
    ensures r.Some? ==> 3 <= r.value.1 <= |s|
  {
    match EscapedByte(s, 0)
    case None => None
    case Some(lead) =>
      if lead < 0x80 then Some((lead as char, 3))
      else
        var n := SequenceLength(lead);
        if n == 0 then None
        else match Continuations(s, n)
          case None => None
          case Some(cont) =>
            match CodePoint(lead, cont)
            case None => None
            case Some(cp) => Some((cp as char, 3 * n))
  }

  /** `decodeURIComponent(s)`; `None` where JavaScript throws `URIError`. */
  function Decode(s: string): Option<string>
    decreases |s|
  {
    if |s| == 0 then Some("")
    else if s[0] != '%' then
      match Decode(s[1..])
      case None => None
      case Some(t) => Some([s[0]] + t)
    else
      match DecodeEscape(s)
      case None => None
      case Some((c, len)) =>
        match Decode(s[len..])
        case None => None
        case Some(t) => Some([c] + t)
  }

  // ---------------------------------------------------------------------
  // Round trip
  // ---------------------------------------------------------------------

  lemma EscapeReadsBack(b: int, s: string, k: nat)
    requires IsByte(b)
    requires k + 3 <= |s| && s[k..k + 3] == Escape(b)
    ensures EscapedByte(s, k) == Some(b)
  {
    assert s[k] == Escape(b)[0] && s[k + 1] == Escape(b)[1] && s[k + 2] == Escape(b)[2];
  }

  lemma {:induction false} EscapeAllIndex(bytes: seq<int>, i: nat)
    requires forall j :: 0 <= j < |bytes| ==> IsByte(bytes[j])
    requires i < |bytes|
    ensures EscapeAll(bytes)[3 * i..3 * i + 3] == Escape(bytes[i])
    decreases i
  {
    if i > 0 {
      EscapeAllIndex(bytes[1..], i - 1);
      assert EscapeAll(bytes) == Escape(bytes[0]) + EscapeAll(bytes[1..]);
    }
  }

  /** Reading back the escapes of `bytes[1..]` yields them as continuations. */
  lemma {:induction false} ContinuationsOfEscaped(bytes: seq<int>, rest: string, n: nat)
    requires forall j :: 0 <= j < |bytes| ==> IsByte(bytes[j])
    requires 1 <= n <= |bytes| <= 4
    requires forall j :: 1 <= j < |bytes| ==> IsContinuation(bytes[j])
    ensures Continuations(EscapeAll(bytes) + rest, n) == Some(bytes[1..n])
    decreases n
  {
    var s := EscapeAll(bytes) + rest;
    if n == 1 {
      assert bytes[1..1] == [];
    } else {
      ContinuationsOfEscaped(bytes, rest, n - 1);
      EscapeAllIndex(bytes, n - 1);
      assert s[3 * (n - 1)..3 * (n - 1) + 3] == EscapeAll(bytes)[3 * (n - 1)..3 * (n - 1) + 3];
      EscapeReadsBack(bytes[n - 1], s, 3 * (n - 1));
      assert IsContinuation(bytes[n - 1]);
      assert bytes[1..n - 1] + [bytes[n - 1]] == bytes[1..n];
    }
  }

  lemma Utf8Continuations(cp: int)
    requires IsScalar(cp)
    ensures forall j :: 1 <= j < |Utf8(cp)| ==> IsContinuation(Utf8(cp)[j])
    ensures |Utf8(cp)| > 1 ==> SequenceLength(Utf8(cp)[0]) == |Utf8(cp)|
    ensures |Utf8(cp)| == 1 <==> Utf8(cp)[0] < 0x80
  {
  }

  lemma Utf8Decodes(cp: int)
    requires IsScalar(cp) && cp >= 0x80
    ensures |Utf8(cp)| == SequenceLength(Utf8(cp)[0])
    ensures CodePoint(Utf8(cp)[0], Utf8(cp)[1..]) == Some(cp)
  {
    var b := Utf8(cp);
    if cp < 0x800 {
      assert cp == (cp / 64) * 64 + cp % 64;
    } else if cp < 0x1_0000 {
      var q := cp / 64;
      assert cp == q * 64 + cp % 64;
      assert q == (q / 64) * 64 + q % 64;
      assert q / 64 == cp / 4096;
    } else {
      var q := cp / 64;
      var q2 := q / 64;
      assert cp == q * 64 + cp % 64;
      assert q == q2 * 64 + q % 64;
      assert q2 == (q2 / 64) * 64 + q2 % 64;
      assert q2 == cp / 4096;
      assert q2 / 64 == cp / 262144;
    }
  }

  /** One character's escapes decode back to that character, leaving the
      rest of the string to be decoded. */
  lemma DecodeEscapeOfChar(c: char, rest: string)
    requires !Unreserved(c)
    ensures DecodeEscape(EncodeChar(c) + rest) == Some((c, |EncodeChar(c)|))
  {
    var bytes := Utf8(c as int);
    var s := EncodeChar(c) + rest;
    assert EncodeChar(c) == EscapeAll(bytes);
    EscapeAllIndex(bytes, 0);
    assert s[0..3] == EscapeAll(bytes)[0..3];
    EscapeReadsBack(bytes[0], s, 0);
    Utf8Continuations(c as int);
    if |bytes| == 1 {
      assert (bytes[0] as char) == c;
    } else {
      MultiByteEscape(c, rest);
    }
  }

  lemma MultiByteEscape(c: char, rest: string)
    requires !Unreserved(c) && |Utf8(c as int)| > 1
    requires EscapedByte(EscapeAll(Utf8(c as int)) + rest, 0) == Some(Utf8(c as int)[0])
    ensures DecodeEscape(EscapeAll(Utf8(c as int)) + rest) == Some((c, 3 * |Utf8(c as int)|))
  {
    var bytes := Utf8(c as int);
    var s := EscapeAll(bytes) + rest;
    Utf8Continuations(c as int);
    var n := SequenceLength(bytes[0]);
    assert n == |bytes|;
    ContinuationsOfEscaped(bytes, rest, n);
    assert bytes[1..n] == bytes[1..];
    assert Continuations(s, n) == Some(bytes[1..]);
    Utf8Decodes(c as int);
    assert CodePoint(bytes[0], bytes[1..]) == Some(c as int);
  }

  lemma DecodeAfterChar(c: char, rest: string)
    ensures Decode(EncodeChar(c) + rest) ==
      match Decode(rest)
      case None => None
      case Some(t) => Some([c] + t)
  {
    var s := EncodeChar(c) + rest;
    if Unreserved(c) {
      assert s[0] == c && c != '%' && s[1..] == rest;
    } else {
      DecodeEscapeOfChar(c, rest);
      assert s[0] == '%';
      assert s[|EncodeChar(c)|..] == rest;
    }
  }

  /** `decodeURIComponent(encodeURIComponent(s)) == s`. */
  lemma {:induction false} DecodeEncode(s: string)
    ensures Decode(Encode(s)) == Some(s)
    decreases |s|
  {
    if |s| > 0 {
      DecodeEncode(s[1..]);
      DecodeAfterChar(s[0], Encode(s[1..]));
      assert [s[0]] + s[1..] == s;
    }
  }

  /** The encoding contains only unreserved characters and `%`: in
      particular no `;`, space or `=`. */
  lemma {:induction false} EncodeAlphabet(s: string)
    ensures forall i :: 0 <= i < |Encode(s)| ==> Unreserved(Encode(s)[i]) || IsHex(Encode(s)[i]) || Encode(s)[i] == '%'
    decreases |s|
  {
    if |s| > 0 {
      EncodeAlphabet(s[1..]);
      var e := EncodeChar(s[0]);
      if !Unreserved(s[0]) {
        EscapeAllAlphabet(Utf8(s[0] as int));
      }
      assert Encode(s) == e + Encode(s[1..]);
    }
  }

  lemma {:induction false} EscapeAllAlphabet(bytes: seq<int>)
    requires forall j :: 0 <= j < |bytes| ==> IsByte(bytes[j])
    ensures forall i :: 0 <= i < |EscapeAll(bytes)| ==> IsHex(EscapeAll(bytes)[i]) || EscapeAll(bytes)[i] == '%'
    decreases |bytes|
  {
    if |bytes| > 0 {
      EscapeAllAlphabet(bytes[1..]);
    }
  }

  lemma EncodeHasNo(s: string, c: char)
    requires !Unreserved(c) && !IsHex(c) && c != '%'
    ensures c !in Encode(s)
  {
    EncodeAlphabet(s);
  }
}
